=== FILE: README.md ===
# roraima — a verified model of the recipe service core

roraima is a small FastAPI/SQLAlchemy recipe service. This project models its core in Dafny and
proves what that core promises:

- **The generic CRUD accessor** (`CRUDBase`): `get`, `get_multi`, `create`, `update` and `remove`.
  They work over a database of two tables, `recipe` and `user`.
- **The record base class and the two mapped classes** (`RoraimaBase`, `Recipe`, `User`):
  - the lifecycle columns with their insert and update defaults;
  - soft deletion with `delete()`;
  - the attribute-map views `keys`/`values`/`items`/`to_dict`;
  - the `Recipe.submitter` / `User.recipes` relationship with its delete cascade.
- **The recipe endpoints**: fetch-or-404, keyword search and create.
- **The exception family** (`RoraimaException` and its subclasses):
  - the default message of each kind;
  - the message a constructor settles on (`%`-formatting with the keyword arguments, the raw
    template kept when formatting fails and format errors are not fatal);
  - `retry_after` on `LimitExceeded` and `ServiceUnavailable`;
  - the inheritance hierarchy.

## Layout

| file | module | contents |
|---|---|---|
| `wrappers.dfy` | `Wrappers` | `Option`, `Result` |
| `seqs.dfy` | `Seqs` | Python's `filter` and `s[:n]`, subsequences |
| `text.dfy` | `Text` | ASCII `str.lower`, substring `in`, `str(int)` / `int(str)` |
| `models.dfy` | `Models` | see below |
| `crud.dfy` | `Crud` | see below |
| `recipe_endpoints.dfy` | `RecipeApi` | `fetch_recipe`, `search_recipes`, `create_recipe` |
| `exceptions.dfy` | `Exceptions` | see below |

- `Models`:
  - a loaded record is its attribute map (`__dict__`, including the ORM's `_sa_instance_state` entry);
  - the column declarations and the record constraints;
  - insert defaults, `onupdate`, soft deletion;
  - the attribute-map views and the relationship.
- `Crud`:
  - the class `Database`: both tables in storage order, one autoincrement counter per table, and
    the clock that the timestamp defaults read;
  - the class `CrudBase`: the accessor bound to one mapped class. `crud.recipe` is
    `CrudBase(Recipe, db)`.
- `Exceptions`:
  - the kinds and their hierarchy, and the default messages;
  - the `%(key)s` / `%%` formatter;
  - message resolution and `retry_after`.

## How the model works

**The database.** A committed write is one atomic step of `Database`:

- Every committed `create`, `update` and soft deletion advances the clock by one. A timestamp
  that such a write stamps is the `clock` before the step. `remove` leaves the clock unchanged.
- A row the database would refuse makes the step fail with `IntegrityError` and changes nothing.
  These are the rows that break a NOT NULL, a column type or the `submitter_id` foreign key.

**The invariant.** `Database.Valid()` holds before and after every operation. It requires:

- every stored row is well-formed for its table and has a key below the table's counter;
- keys are unique within a table;
- every recipe's `submitter_id` is NULL or the key of a stored user.

**The operations.**

- `update` copies each field of the record that the payload also has. It skips the ORM's private
  `_sa…` attributes, as `jsonable_encoder` does. On commit, `updated_at` is stamped unless the
  payload changes it, that is, gives it a value other than the stored one.
- Soft deletion sets `deleted` and `deleted_at`. It then saves, and `save()` flushes an UPDATE,
  so `onupdate` also refreshes `updated_at`. The model follows the code here, so a soft-deleted
  row's `updated_at` changes too.
- Deleting a user also deletes its recipes, through `cascade="all,delete-orphan"`.

**Search.** It loads the page `get_multi(limit=max_results)` and only then filters by a
case-insensitive label match. A matching recipe outside that page is never returned.

**Exceptions.** A constructor either produces an exception value or fails with the error
construction raises:

- `ValueError` when a truthy `retry` is not an integer spelling;
- a format error only when format errors are fatal.

## Model

| member | source | states |
|---|---|---|
| `Seqs.Filter` | roraima/api/api_v1/endpoints/recipe.py:42 | `filter` keeps exactly the elements that satisfy the predicate, and the result is no longer than the input |
| `Seqs.FilterMultiset` | roraima/api/api_v1/endpoints/recipe.py:42 | `filter` keeps every occurrence of a satisfying element, duplicates included, and drops every other element |
| `Seqs.FilterIsSubsequence` | roraima/api/api_v1/endpoints/recipe.py:42 | `filter` preserves the order of the elements it keeps |
| `Seqs.Take` | roraima/api/api_v1/endpoints/recipe.py:43 | `s[:n]` is the prefix of length min(n, len(s)); it is the whole of `s` when n is at least len(s) |
| `Text.Lower` | roraima/api/api_v1/endpoints/recipe.py:42 | `lower()` keeps the length, lowers each character, and leaves no upper-case ASCII letter |
| `Text.ContainsIff` | roraima/api/api_v1/endpoints/recipe.py:42 | substring `in` is true exactly when the needle occurs at some position of the haystack |
| `Text.ContainsSound` | roraima/api/api_v1/endpoints/recipe.py:42 | when the scan reports a match, the needle occurs at some position |
| `Text.ContainsComplete` | roraima/api/api_v1/endpoints/recipe.py:42 | every position where the needle occurs makes the scan report a match |
| `Text.Contains` | roraima/api/api_v1/endpoints/recipe.py:42 | substring `in`, scanning each start position from the left; `Text.ContainsIff` proves it true exactly when the needle occurs somewhere in the haystack |
| `Text.ParseInt` | roraima/common/exception.py:176 | `int()` on a string: an optional sign and one or more ASCII digits give their value, anything else is `ValueError` (None); `Text.IntToStringRoundTrip` proves it inverts `str(int)` |
| `Text.IntToString` | roraima/api/api_v1/endpoints/recipe.py:23 | the decimal spelling of an integer is non-empty and starts with `-` exactly for negatives; the rest is one or more digits with no leading zero, so there is no `+` sign and no padding |
| `Text.IntToStringRoundTrip` | roraima/api/api_v1/endpoints/recipe.py:23 | `int(str(i)) == i` for every integer: the `str(int)` of the 404 detail reads back, and the `int()` of `retry` in roraima/common/exception.py:176 inverts it |
| `Models.ColumnList` | roraima/db/models.py:26-33 | a table's declared columns are the lifecycle columns, the key and that table's own columns |
| `Models.WellFormedColumns` | roraima/db/models.py:60-73 | every column of a valid record is present with a value of its declared type; NULL appears only where the column is nullable; a recipe always has a string `label` |
| `Models.IndexOf` | roraima/crud/base.py:28 | `filter(model.id == id).first()`: the first row with that key, and None exactly when no row has it |
| `Models.IndexOfUnique` | roraima/crud/base.py:28 | with unique keys, the row found is the only row with that key |
| `Models.InsertDefault` | roraima/db/models.py:26-74 | the insert default of each column: the clock for `created_at` and `updated_at`, false for `deleted` and `is_superuser`, NULL for every other column; `Models.NewRecord` proves an inserted record takes it wherever the payload gives nothing or NULL |
| `Models.NewRecord` | roraima/db/models.py:26-74 | an inserted record has exactly the table's columns plus the private entry; `created_at` and `updated_at` are both the clock; `deleted` is false and `deleted_at` NULL; a non-NULL payload value is kept; a payload column that is absent or NULL takes its insert default (so a NULL `is_superuser` becomes false), and a column without a default keeps the submitted NULL |
| `Models.MarkDeleted` | roraima/db/models.py:35-38 | `delete()` sets `deleted` to true and `deleted_at` to the clock and changes no other attribute |
| `Models.Touch` | roraima/db/models.py:29-30 | `onupdate` sets `updated_at` to the clock and changes no other attribute |
| `Models.SoftDeleteWellFormed` | roraima/db/models.py:35-39 | a soft-deleted record is still a valid record of its table and keeps its key |
| `Models.Items` | roraima/db/models.py:47-48 | `items()` holds exactly the (name, value) pairs of the attribute map |
| `Models.Keys` | roraima/db/models.py:41-42 | `keys()` is exactly the set of names that `items()` pairs carry |
| `Models.Values` | roraima/db/models.py:44-45 | `values()` has one value per attribute: each value occurs exactly as many times as there are attributes holding it |
| `Models.ToDict` | roraima/db/models.py:50-57 | `to_dict()` is the attribute map without `_sa_instance_state`, other entries unchanged; it fails when that entry is missing |
| `Models.ToDictItems` | roraima/db/models.py:50-57 | `to_dict()` holds the pairs of `items()` minus the private one |
| `Models.Submitter` | roraima/db/models.py:65-66 | `Recipe.submitter` is a stored user whose key is the recipe's `submitter_id`; it is None only when no stored user has that key |
| `Models.RecipesOf` | roraima/db/models.py:75-80 | `User.recipes` holds exactly the stored recipes whose `submitter_id` is the user's key, and no more rows than the recipe table has |
| `Models.BackPopulates` | roraima/db/models.py:75-80 | a recipe is in `user.recipes` exactly when it is stored and its submitter is that user |
| `Crud.UpdateData` | roraima/crud/base.py:56-59 | a dict payload is used as given; a schema payload contributes only its explicitly set fields |
| `Crud.EncodedFields` | roraima/crud/base.py:54 | the fields the update loop visits are the record's attributes minus the `_sa…` ones |
| `Crud.Merge` | roraima/crud/base.py:60-62 | after the loop, every visited field that the payload has takes the payload value; every other attribute keeps its value; payload keys that are not attributes are ignored |
| `Crud.Persisted` | roraima/crud/base.py:60-65 | the row an update writes is the merge, stamped with the clock in `updated_at` unless the payload gives that column a value other than the stored one, in which case `updated_at` is the payload's value (a value equal to the stored one is left out of the SET clause, so `onupdate` fires); `created_at` is unchanged unless the payload set it |
| `Crud.MergeIdempotent` | roraima/crud/base.py:60-62 | applying the same payload twice gives the same record as applying it once |
| `Crud.UnsetFieldKept` | roraima/crud/base.py:59-62 | a schema field that was not set explicitly never overwrites the record |
| `Crud.EncodedFieldsAreDictKeys` | roraima/crud/base.py:54 | for a record whose only private attribute is the instance state, the visited fields are exactly the keys of `to_dict()` |
| `Crud.AppendFresh` | roraima/crud/base.py:41-43 | appending a valid row under the next counter value keeps the table valid |
| `Crud.ReplaceSameKey` | roraima/crud/base.py:63-64 | rewriting a row under its own key keeps the table valid and the set of stored keys the same |
| `Crud.RemoveAt` | roraima/crud/base.py:72-73 | deleting a row keeps the table valid, and its key is no longer found |
| `Crud.FilterKeepsTable` | roraima/db/models.py:75-80 | dropping rows, as the cascade does, keeps a table valid |
| `Crud.CascadeKeepsLinks` | roraima/db/models.py:75-80 | after deleting a user together with its recipes, every remaining recipe still names a stored user or NULL |
| `Crud.RemoveRecipeKeepsLinks` | roraima/crud/base.py:72-73 | deleting a recipe leaves the other recipes' links intact |
| `Crud.LinksSurviveGrowth` | roraima/crud/base.py:41-43 | adding a user breaks no recipe's link |
| `Crud.Database.constructor` | roraima/db/models.py:59-80 | a fresh database has both tables empty, each AUTO_INCREMENT key starting at 1, the clock at 0, and satisfies `Database.Valid()` |
| `Crud.CrudBase.constructor` | roraima/crud/base.py:16-23 | the accessor is bound to one mapped class and to the database |
| `Crud.CrudBase.Get` | roraima/crud/base.py:25-28 | `get(id)` is a stored record with that key when one exists, and None exactly when none does |
| `Crud.CrudBase.GetMulti` | roraima/crud/base.py:30-35 | `get_multi(skip=0, limit=100)` is the storage-order slice from `skip` of length min(limit, n - skip), or empty past the end |
| `Crud.CrudBase.Create` | roraima/crud/base.py:37-45 | `create` appends exactly one record built from the payload under a key no stored row has, advances the counter and clock, and leaves everything else unchanged; `get` of the new key returns it; a refused row changes nothing and raises `IntegrityError` |
| `Crud.CrudBase.CopyFields` | roraima/crud/base.py:60-62 | the field-by-field `setattr` loop computes exactly `Merge` |
| `Crud.CrudBase.Update` | roraima/crud/base.py:47-66 | `update` rewrites only the target row, to the merged and stamped record; every other row and the other table are unchanged; a vanished row raises `StaleData`; a refused row or a key change raises `IntegrityError` and changes nothing |
| `Crud.CrudBase.Remove` | roraima/crud/base.py:68-74 | `remove(id)` deletes exactly that row and returns its last state, so a later `get(id)` is None; removing a user also removes exactly its recipes; a missing id raises `UnmappedInstance` and changes nothing |
| `Crud.CrudBase.SoftDelete` | roraima/db/models.py:35-39 | `delete()` flags and stamps the row in place; the row stays in the table, `get` returns the new state, and nothing else changes |
| `RecipeApi.NotFoundDetail` | roraima/api/api_v1/endpoints/recipe.py:23 | the 404 detail `Recipe with ID {recipe_id} not found`, with the key in decimal; `RecipeApi.NotFoundDetailNamesId` proves the key reads back from it |
| `RecipeApi.FetchRecipe` | roraima/api/api_v1/endpoints/recipe.py:18-26 | the stored recipe with that key, or a 404 whose detail is `Recipe with ID {id} not found`; the 404 happens exactly when no stored recipe has the key |
| `RecipeApi.NotFoundDetailNamesId` | roraima/api/api_v1/endpoints/recipe.py:23 | the 404 detail reads back to the requested key between its fixed prefix and suffix |
| `RecipeApi.LabelMatches` | roraima/api/api_v1/endpoints/recipe.py:42 | `keyword.lower() in recipe.label.lower()` for a recipe with a string label; `RecipeApi.SearchRecipes` proves every result satisfies it and every loaded recipe that satisfies it is returned |
| `RecipeApi.Truncate` | roraima/api/api_v1/endpoints/recipe.py:43 | `list[:max_results]` is a prefix of at most `max_results` elements and is everything when `max_results` is None |
| `RecipeApi.FilterPage` | roraima/api/api_v1/endpoints/recipe.py:39-43 | without a keyword the page comes back unchanged; with one, the result is an order-preserving subsequence of the page whose every label contains the keyword case-insensitively, and it has at most `max_results` elements |
| `RecipeApi.FilterPageComplete` | roraima/api/api_v1/endpoints/recipe.py:42-43 | a matching recipe of a page no longer than `max_results` is never dropped |
| `RecipeApi.LoadedPage` | roraima/api/api_v1/endpoints/recipe.py:38 | `get_multi(limit=max_results)` loads the first min(max_results, n) recipes in storage order, or all of them for None |
| `RecipeApi.SearchRecipes` | roraima/api/api_v1/endpoints/recipe.py:29-43 | `keyword` defaults to None and `max_results` to 10; a keyword shorter than 3 is rejected before any lookup; otherwise the results are an order-preserving subsequence of the loaded page; without a keyword they are exactly that page; with one, every result matches and every match in the page is returned; there are at most `max_results` results |
| `RecipeApi.BeyondPageNeverReturned` | roraima/api/api_v1/endpoints/recipe.py:38-43 | a stored recipe beyond the first `max_results` rows is never a search result, even when it matches |
| `RecipeApi.RecipeColumnsHaveNoDefault` | roraima/db/models.py:60-64 | no recipe column a payload may set has an insert default |
| `RecipeApi.CreateRecipe` | roraima/api/api_v1/endpoints/recipe.py:46-55 | `create_recipe` returns the record `create` produced: an admissible payload is appended as exactly one new recipe and returned, the users are unchanged, and an inadmissible one raises `IntegrityError` and changes nothing; the created recipe holds the payload's values, and fetching its key returns it; a payload without `label`, or with a NULL one, is refused |
| `Exceptions.Parent` | roraima/common/exception.py:18-264 | each class's direct base: only `RoraimaException` has none among the kinds, and every base is `RoraimaException`, `Forbidden`, `Invalid`, `Duplicate` or `NotFound` |
| `Exceptions.IsA` | roraima/common/exception.py:18-264 | `issubclass(k, a)`: `a` is `k` or lies on its chain of bases; the lemmas below prove every kind is a `RoraimaException`, and the relation transitive and single-chained |
| `Exceptions.DefaultMessage` | roraima/common/exception.py:26-264 | each class's `message` attribute, text for text; `Exceptions.Template0` proves it is the template when no message is given, and `Exceptions.MissingCredentialFormat` formats one of them |
| `Exceptions.EveryKindIsRoraimaException` | roraima/common/exception.py:18-264 | every kind's chain of base classes ends at `RoraimaException` |
| `Exceptions.RootHasNoAncestor` | roraima/common/exception.py:18 | the root has no ancestor among the kinds but itself |
| `Exceptions.IsATransitive` | roraima/common/exception.py:18-264 | `is-a` is transitive along the hierarchy |
| `Exceptions.AncestorsFormAChain` | roraima/common/exception.py:18-264 | single inheritance: any two ancestors of a kind are related to each other |
| `Exceptions.ForbiddenRefinements` | roraima/common/exception.py:86-149 | the `ProtectedMetadef*`, `ReadonlyProperty` and `ReservedProperty` kinds are `Forbidden`, and neither `Invalid` nor `NotFound` |
| `Exceptions.InvalidRefinements` | roraima/common/exception.py:120-137 | the `InvalidSort*` and `InvalidFilter*` kinds are `Invalid` and not `Forbidden` |
| `Exceptions.DirectChildren` | roraima/common/exception.py:53-116 | `NotFound`, `Forbidden` and `Invalid` derive directly from `RoraimaException`, and none of them derives from another |
| `Exceptions.EndpointNotFoundIsNotFound` | roraima/common/exception.py:262-264 | `RoraimaEndpointNotFound` is `NotFound` and not `Invalid` |
| `Exceptions.Str` | roraima/common/exception.py:33 | `str(v)` of a keyword argument: the decimal spelling of an int, a string itself, `True`/`False`, `None`; `Exceptions.FormatExpands` proves a placeholder becomes it |
| `Exceptions.Truthy` | roraima/common/exception.py:176 | Python truthiness of `retry`: a non-zero int, a non-empty string, `True`; `Exceptions.RetryAfterOf` proves a falsy `retry` gives no `retry_after` |
| `Exceptions.Format` | roraima/common/exception.py:33 | `message % kwargs`: characters copied, `%%` to `%`, `%(key)s` to `str` of its value, anything else a format error (None); its behaviour is proved piece by piece in the lemmas that follow |
| `Exceptions.FormatStep` | roraima/common/exception.py:33 | formatting a template consumes its first piece: a character is copied, `%%` gives `%`, and a bound `%(key)s` gives `str(value)`; an unbound one fails |
| `Exceptions.FormatKeyStep` | roraima/common/exception.py:33 | a leading `%(key)s` whose key has no parenthesis is replaced by `str(value)` when the key is bound, and makes formatting fail when it is not |
| `Exceptions.PlaceholderAlone` | roraima/common/exception.py:33 | a template that is one bound `%(key)s` formats to `str` of the key's value |
| `Exceptions.FormatExpands` | roraima/common/exception.py:33 | when every `%(key)s` is bound, each placeholder is replaced by its value and all other text is unchanged |
| `Exceptions.FormatUnbound` | roraima/common/exception.py:33-39 | a placeholder whose key was not passed makes formatting fail |
| `Exceptions.FormatPlainText` | roraima/common/exception.py:33 | text without `%` formats to itself whatever the arguments |
| `Exceptions.FormatPlainPrefix` | roraima/common/exception.py:33 | text without `%` in front of a template is copied through unchanged |
| `Exceptions.Template0` | roraima/common/exception.py:29-30 | a None or empty message falls back to the kind's default message; any other message is used as given |
| `Exceptions.ResolveMessage` | roraima/common/exception.py:28-41 | with no keyword arguments the template is kept verbatim; otherwise it is the formatted text; if formatting fails, a non-fatal policy keeps the raw template and a fatal one raises |
| `Exceptions.PyInt` | roraima/common/exception.py:176 | `int()` of an int is itself, of `True` is 1, and of a string is its decimal value or `ValueError` |
| `Exceptions.RetryAfterOf` | roraima/common/exception.py:175-178 | `retry_after` is None when `retry` is absent or falsy; otherwise it is `int(retry)`, and it fails with `ValueError` exactly when `int(retry)` does |
| `Exceptions.Construct` | roraima/common/exception.py:175-189 | an exception's kind is the class constructed; `msg` is the resolved message and also the only argument given to `Exception`; only `LimitExceeded` and `ServiceUnavailable` have `retry_after`, computed from `retry` before the message; construction succeeds exactly when `retry_after` (for those two kinds) and the message both resolve, and a bad `retry` raises `ValueError` before any format error |
| `Exceptions.Raise` | roraima/common/exception.py:10-41 | with format errors not fatal, constructing any kind without `retry_after` never fails; `LimitExceeded` and `ServiceUnavailable` succeed exactly when `int(retry)` does, carry that value as `retry_after`, and otherwise raise `ValueError`; a failed formatting leaves the raw template as `msg` |
| `Exceptions.RaiseFormatted` | roraima/common/exception.py:31-41 | when formatting succeeds, the exception carries the formatted text as `msg` and as its argument |
| `Exceptions.MissingCredentialFormat` | roraima/common/exception.py:44-45 | the default template of `MissingCredentialError` formats to its fixed prefix followed by `str(required)` |
| `Exceptions.MissingCredentialMessage` | roraima/common/exception.py:44-45 | `MissingCredentialError(required=v)` reads `Missing required credential: ` followed by `str(v)` |
| `Exceptions.NonNumericRetry` | roraima/common/exception.py:175-178 | any non-empty string `retry` that is not an integer spelling makes construction of `LimitExceeded` or `ServiceUnavailable` raise `ValueError` |
| `Exceptions.RetryRejected` | roraima/common/exception.py:176-177 | a non-empty string `retry` that is not an integer spelling makes `retry_after` raise `ValueError` |
| `Exceptions.NumericRetry` | roraima/common/exception.py:175-189 | a string `retry` that spells the integer n gives `LimitExceeded` or `ServiceUnavailable` a `retry_after` of n |

## Left out

- Sessions, transactions, `commit`/`refresh` and the lazy engine facade with its locking. Each
  operation is one atomic step of `Database`; `roraima/db/sqlalchemy/api.py` is not part of
  this model.
- `jsonable_encoder` and pydantic validation of the payloads. Payloads are attribute maps that
  are already validated: a create payload names only the table's own payload columns (never
  `id` or a lifecycle column such as `created_at`, `updated_at`, `deleted_at` or `deleted`), and no
  value is coerced.
- `Crud.CrudBase.Update` takes the key of the stored record instead of a loaded `db_obj`. The
  in-memory values of a stale `db_obj` are not modelled.
- `Crud.CrudBase.Update` refuses a change of the primary key with `IntegrityError`. What the
  database would do with such an UPDATE is not modelled.
- `Crud.Persisted` stamps `updated_at` on every update whose payload does not change that column,
  even one that changes no column at all. The ORM skips the UPDATE, and so the stamp, when
  nothing changed.
- `Crud.CrudBase.SoftDelete` is `RoraimaBase.delete()`, a method of the record, not of the
  accessor: `CRUDBase` never soft-deletes. The model hosts it on the accessor only because that is
  where the record's table lives, and it takes the record's key instead of the loaded object, as
  `Crud.CrudBase.Update` does. The in-memory values of a stale record are not modelled.
- Negative `skip`, `limit` and `max_results`. They are natural numbers here.
- Row order. A query without ORDER BY is taken to return rows in storage order.
- `String(256)` widths and the MySQL table options. The code does not enforce them.
- An insert the database refuses may consume an autoincrement value in MySQL. Here it does not.
- Wall-clock time (`timeutils.utcnow`). It is an integer clock. Every committed `create`,
  `update` and soft deletion advances it by one; `remove` leaves it unchanged.
- Unicode `str.lower`. Lower-casing covers ASCII only.
- `Text.ParseInt` accepts an optional sign followed by ASCII digits. `int()` also accepts
  surrounding whitespace, underscores between digits and non-ASCII digits.
- `Exceptions.Format` treats the following as formatting failures, although Python may succeed
  on some of them:
  - a key containing `(`: Python counts parentheses, so it accepts a balanced key such as
    `%(a(b))s` and rejects an unbalanced one such as `%(a(b)s`; no template of the exception family
    has a parenthesis in a key;
  - flags, width or precision after `%(key)`;
  - conversions other than `s`;
  - `%s` without a key, which Python formats with the whole dict.
- Keyword-argument values other than int, str, bool and None, and message objects that are not
  strings.
- Translation with `_()`. It is the identity here.
- `RedirectException`. It only parses a URL with `urllib.parse`.
- `Models.Values` is a multiset, and `Models.Keys` and `Models.Items` are sets. The insertion
  order of the dict views is not modelled.
- The HTTP layer beyond the result-or-error value: response models, status codes on success,
  and the body of the 422 answer. The rejection of a too-short keyword is `ValidationError("keyword")`.
- Configuration (`roraima/common/config.py`, `roraima/common/wsgi.py`) and application startup
  (`roraima/cmd/api.py`). They are wiring with no logic of their own.
- `roraima/crud/crud_recipe.py` binds the accessor to `Recipe`. It is `CrudBase(Recipe, db)` here.
- A record may carry attributes beyond its columns. Well-formedness constrains only the declared
  columns and the private instance-state entry.

=== FILE: crud.dfy ===
/**
 * The generic CRUD accessor over the two tables. `Database` is the state a session reaches (the
 * stored rows in storage order, one autoincrement counter per table and the clock that the
 * timestamp defaults read); `CrudBase` is the accessor bound to one mapped class. Each operation
 * is one committed transaction.
 */
module Crud {
  import opened Wrappers
  import opened Seqs
  import opened Models

  /** What a failed commit raises. */
  datatype DbError =
    | IntegrityError    // a NOT NULL, type or foreign-key violation, or a primary-key change
    | StaleData         // the UPDATE found no row for the object's key
    | UnmappedInstance  // `session.delete(None)` after a lookup that found nothing

  /** The `obj_in` of `update`: a plain dict, or a schema object together with the fields set explicitly. */
  datatype UpdateInput = DictInput(data: Attrs) | SchemaInput(fields: Attrs, explicitlySet: set<string>)

  /** `update_data`: the dict as given, or `obj_in.dict(exclude_unset=True)`. */
  function UpdateData(input: UpdateInput): (d: Attrs)
    ensures input.DictInput? ==> d == input.data
    ensures input.SchemaInput? ==> d.Keys == input.fields.Keys * input.explicitlySet
    ensures input.SchemaInput? ==> forall k :: k in d ==> d[k] == input.fields[k]
  {
    match input
    case DictInput(d) => d
    case SchemaInput(f, set_) => map k | k in f && k in set_ :: f[k]
  }

  /** Keys `jsonable_encoder` leaves out of an ORM object (it skips names starting with "_sa"). */
  predicate IsSaKey(k: string) {
    |k| >= 3 && k[..3] == "_sa"
  }

  /** The keys of `jsonable_encoder(db_obj)`: the fields the update loop visits. */
  function EncodedFields(obj: Attrs): (fs: set<string>)
    ensures fs <= obj.Keys
    ensures forall k :: k in obj && !IsSaKey(k) ==> k in fs
    ensures forall k :: k in fs ==> !IsSaKey(k)
  {
    set k | k in obj && !IsSaKey(k)
  }

  /** `obj` after `setattr(obj, f, data[f])` for every field `f` of `fs` that `data` has. */
  function MergeFields(obj: Attrs, data: Attrs, fs: set<string>): Attrs {
    map k | k in obj :: if k in fs && k in data then data[k] else obj[k]
  }

  /** The record after the update loop: only fields that are both attributes and payload keys change. */
  function Merge(obj: Attrs, data: Attrs): (r: Attrs)
    ensures r.Keys == obj.Keys
    ensures forall k :: k in obj && !IsSaKey(k) && k in data ==> r[k] == data[k]
    ensures forall k :: k in obj && (IsSaKey(k) || k !in data) ==> r[k] == obj[k]
  {
    MergeFields(obj, data, EncodedFields(obj))
  }

  /**
   * The row an UPDATE writes: the merged record, stamped by `onupdate` unless the payload changed
   * `updated_at` (an attribute set to its committed value is left out of the SET clause).
   */
  function Persisted(obj: Attrs, data: Attrs, now: int): (r: Attrs)
    ensures r.Keys == obj.Keys + {UpdatedAt}
    ensures UpdatedAt !in data ==> r[UpdatedAt] == Time(now)
    ensures StampSet(obj, data) ==> r[UpdatedAt] == data[UpdatedAt]
    ensures !StampSet(obj, data) ==> r[UpdatedAt] == Time(now)
    ensures CreatedAt in obj && CreatedAt !in data ==> r[CreatedAt] == obj[CreatedAt]
    ensures forall k :: k in obj && k != UpdatedAt && !IsSaKey(k) && k in data ==> r[k] == data[k]
    ensures forall k :: k in obj && k != UpdatedAt && (IsSaKey(k) || k !in data) ==> r[k] == obj[k]
  {
    var merged := Merge(obj, data);
    assert !IsSaKey(UpdatedAt) by {
      assert UpdatedAt[..3] == "upd";
    }
    if StampSet(obj, data) then merged else Touch(merged, now)
  }

  /** The payload gives `updated_at` a value other than the committed one, so the UPDATE sets it. */
  predicate StampSet(obj: Attrs, data: Attrs) {
    UpdatedAt in data && UpdatedAt in obj && data[UpdatedAt] != obj[UpdatedAt]
  }

  /** Applying the same partial update twice changes nothing more. */
  lemma MergeIdempotent(obj: Attrs, data: Attrs)
    ensures Merge(Merge(obj, data), data) == Merge(obj, data)
  {
  }

  /** A schema field that was not set explicitly is never overwritten. */
  lemma UnsetFieldKept(obj: Attrs, fields: Attrs, explicitlySet: set<string>, k: string)
    requires k in obj && k !in explicitlySet
    ensures Merge(obj, UpdateData(SchemaInput(fields, explicitlySet)))[k] == obj[k]
  {
  }

  /** For a record whose only private attribute is the instance state, the fields the update loop
   *  visits are exactly the keys `to_dict()` keeps. */
  lemma EncodedFieldsAreDictKeys(r: Attrs)
    requires InstanceStateKey in r
    requires forall k :: k in r && IsSaKey(k) ==> k == InstanceStateKey
    ensures ToDict(r).Some? && EncodedFields(r) == ToDict(r).value.Keys
  {
    assert IsSaKey(InstanceStateKey) by {
      assert InstanceStateKey[..3] == "_sa";
    }
  }

  // ---------------------------------------------------------------------------------------
  // Table invariants

  /** A well-formed record of `e` whose key the counter has already handed out. */
  predicate RowOk(e: Entity, r: Attrs, next: int) {
    WellFormed(e, r) && r[Id].i < next
  }

  /** Every stored row is well-formed with an issued key, and no two rows share a key. */
  predicate TableOk(e: Entity, rows: seq<Attrs>, next: int) {
    && (forall i :: 0 <= i < |rows| ==> RowOk(e, rows[i], next))
    && UniqueIds(rows)
  }

  /** Rows drawn from a valid table are themselves valid rows. */
  lemma RowsFrom(e: Entity, rows: seq<Attrs>, next: int, rows': seq<Attrs>)
    requires TableOk(e, rows, next)
    requires forall r :: r in rows' ==> r in rows
    ensures forall i :: 0 <= i < |rows'| ==> RowOk(e, rows'[i], next)
  {
    forall i | 0 <= i < |rows'| ensures RowOk(e, rows'[i], next) {
      assert rows'[i] in rows;
    }
  }

  /** The recipe's `submitter_id` is NULL or the key of a stored user (`ForeignKey("user.id")`). */
  predicate LinkOk(recipe: Attrs, users: seq<Attrs>) {
    SubmitterId in recipe &&
    (recipe[SubmitterId] == Null || (recipe[SubmitterId].Int? && IndexOf(users, recipe[SubmitterId].i).Some?))
  }

  predicate ForeignKeysOk(recipes: seq<Attrs>, users: seq<Attrs>) {
    forall i :: 0 <= i < |recipes| ==> LinkOk(recipes[i], users)
  }

  /** The database accepts `row` into table `e`. */
  predicate Admissible(e: Entity, row: Attrs, users: seq<Attrs>) {
    WellFormed(e, row) && (e == Recipe ==> LinkOk(row, users))
  }

  function Other(e: Entity): Entity {
    if e == Recipe then User else Recipe
  }

  lemma AppendFresh(e: Entity, rows: seq<Attrs>, next: int, row: Attrs)
    requires TableOk(e, rows, next) && WellFormed(e, row) && HasId(row, next)
    ensures TableOk(e, rows + [row], next + 1)
  {
    var rows': seq<Attrs> := rows + [row];
    forall i, j | 0 <= i < j < |rows'| ensures rows'[i][Id] != rows'[j][Id] {
      assert RowOk(e, rows'[i], next);
    }
  }

  lemma ReplaceSameKey(e: Entity, rows: seq<Attrs>, next: int, i: nat, row: Attrs)
    requires TableOk(e, rows, next) && i < |rows| && WellFormed(e, row) && HasId(row, rows[i][Id].i)
    ensures TableOk(e, rows[i := row], next)
    ensures forall x :: IndexOf(rows[i := row], x).Some? <==> IndexOf(rows, x).Some?
  {
    var rows': seq<Attrs> := rows[i := row];
    forall x ensures IndexOf(rows', x).Some? <==> IndexOf(rows, x).Some? {
      if IndexOf(rows, x).Some? {
        var j := IndexOf(rows, x).value;
        assert HasId(rows'[j], x);
      }
      if IndexOf(rows', x).Some? {
        var j := IndexOf(rows', x).value;
        assert HasId(rows[j], x);
      }
    }
  }

  lemma RemoveAt(e: Entity, rows: seq<Attrs>, next: int, i: nat)
    requires TableOk(e, rows, next) && i < |rows|
    ensures TableOk(e, rows[..i] + rows[i + 1..], next)
    ensures IndexOf(rows[..i] + rows[i + 1..], rows[i][Id].i).None?
  {
    var rows': seq<Attrs> := rows[..i] + rows[i + 1..];
    forall j | 0 <= j < |rows'| ensures rows'[j] == rows[if j < i then j else j + 1] {
    }
    forall j | 0 <= j < |rows'| ensures RowOk(e, rows'[j], next) {
      assert rows'[j] == rows[if j < i then j else j + 1];
    }
    forall a, b | 0 <= a < b < |rows'| && Id in rows'[a] && Id in rows'[b] ensures rows'[a][Id] != rows'[b][Id] {
      assert rows'[a] == rows[if a < i then a else a + 1];
      assert rows'[b] == rows[if b < i then b else b + 1];
    }
    forall j | 0 <= j < |rows'| ensures !HasId(rows'[j], rows[i][Id].i) {
      assert rows'[j] == rows[if j < i then j else j + 1];
    }
  }

  /** A key stored at position `j` other than `i` is still found after row `i` is removed. */
  lemma FoundAfterRemove(rows: seq<Attrs>, i: nat, j: nat, x: int)
    requires i < |rows| && j < |rows| && j != i && HasId(rows[j], x)
    ensures IndexOf(rows[..i] + rows[i + 1..], x).Some?
  {
    var rows': seq<Attrs> := rows[..i] + rows[i + 1..];
    var j' := if j < i then j else j - 1;
    assert rows'[j'] == rows[j];
  }

  /** Dropping rows keeps keys unique. */
  lemma {:induction false} FilterKeepsUnique(rows: seq<Attrs>, p: Attrs -> bool)
    requires UniqueIds(rows)
    ensures UniqueIds(Filter(rows, p))
    decreases |rows|
  {
    if rows != [] {
      var tail: seq<Attrs> := rows[1..];
      assert UniqueIds(tail) by {
        forall a, b | 0 <= a < b < |tail| && Id in tail[a] && Id in tail[b] ensures tail[a][Id] != tail[b][Id] {
          assert tail[a] == rows[a + 1] && tail[b] == rows[b + 1];
        }
      }
      FilterKeepsUnique(tail, p);
      var rest: seq<Attrs> := Filter(tail, p);
      if p(rows[0]) {
        var out: seq<Attrs> := [rows[0]] + rest;
        assert Filter(rows, p) == out;
        forall a, b | 0 <= a < b < |out| && Id in out[a] && Id in out[b] ensures out[a][Id] != out[b][Id] {
          if a == 0 {
            assert out[b] == rest[b - 1] && rest[b - 1] in tail;
            var m :| 0 <= m < |tail| && tail[m] == rest[b - 1];
            assert tail[m] == rows[m + 1];
          } else {
            assert out[a] == rest[a - 1] && out[b] == rest[b - 1];
          }
        }
      } else {
        assert Filter(rows, p) == rest;
      }
    }
  }

  /** Dropping rows keeps a table valid. */
  lemma FilterKeepsTable(e: Entity, rows: seq<Attrs>, next: int, p: Attrs -> bool)
    requires TableOk(e, rows, next)
    ensures TableOk(e, Filter(rows, p), next)
  {
    FilterKeepsUnique(rows, p);
    RowsFrom(e, rows, next, Filter(rows, p));
  }

  lemma LinksAfterRecipeAppend(recipes: seq<Attrs>, users: seq<Attrs>, row: Attrs)
    requires ForeignKeysOk(recipes, users) && LinkOk(row, users)
    ensures ForeignKeysOk(recipes + [row], users)
  {
    var recipes' := recipes + [row];
    forall k | 0 <= k < |recipes'| ensures LinkOk(recipes'[k], users) {
      if k < |recipes| {
        assert recipes'[k] == recipes[k];
      }
    }
  }

  lemma LinksAfterRecipeReplace(recipes: seq<Attrs>, users: seq<Attrs>, i: nat, row: Attrs)
    requires ForeignKeysOk(recipes, users) && i < |recipes| && LinkOk(row, users)
    ensures ForeignKeysOk(recipes[i := row], users)
  {
    var recipes' := recipes[i := row];
    forall k | 0 <= k < |recipes'| ensures LinkOk(recipes'[k], users) {
      if k != i {
        assert recipes'[k] == recipes[k];
      }
    }
  }

  lemma LinksAfterUserReplace(recipes: seq<Attrs>, users: seq<Attrs>, users': seq<Attrs>)
    requires ForeignKeysOk(recipes, users)
    requires forall x :: IndexOf(users', x).Some? <==> IndexOf(users, x).Some?
    ensures ForeignKeysOk(recipes, users')
  {
    forall k | 0 <= k < |recipes| ensures LinkOk(recipes[k], users') {
      assert LinkOk(recipes[k], users);
    }
  }

  lemma LinksSurviveGrowth(recipes: seq<Attrs>, users: seq<Attrs>, row: Attrs)
    requires ForeignKeysOk(recipes, users)
    ensures ForeignKeysOk(recipes, users + [row])
  {
    forall i | 0 <= i < |recipes| ensures LinkOk(recipes[i], users + [row]) {
      assert LinkOk(recipes[i], users);
      if recipes[i][SubmitterId] != Null {
        var sid := recipes[i][SubmitterId].i;
        var j := IndexOf(users, sid).value;
        assert HasId((users + [row])[j], sid);
      }
    }
  }

  /** Deleting user `users[i]` together with its recipes leaves every remaining link intact. */
  lemma CascadeKeepsLinks(recipes: seq<Attrs>, users: seq<Attrs>, i: nat)
    requires ForeignKeysOk(recipes, users) && UniqueIds(users)
    requires i < |users| && Id in users[i] && users[i][Id].Int?
    ensures ForeignKeysOk(Filter(recipes, NotSubmittedByUser(users[i][Id].i)), users[..i] + users[i + 1..])
  {
    var uid := users[i][Id].i;
    var kept := Filter(recipes, NotSubmittedByUser(uid));
    forall k | 0 <= k < |kept| ensures LinkOk(kept[k], users[..i] + users[i + 1..]) {
      var x := kept[k];
      assert x in recipes && NotSubmittedByUser(uid)(x);
      var m :| 0 <= m < |recipes| && recipes[m] == x;
      assert LinkOk(recipes[m], users);
      if x[SubmitterId] != Null {
        var sid := x[SubmitterId].i;
        var j := IndexOf(users, sid).value;
        assert sid != uid;
        FoundAfterRemove(users, i, j, sid);
      }
    }
  }

  /** Deleting one recipe leaves the other recipes' links intact. */
  lemma RemoveRecipeKeepsLinks(recipes: seq<Attrs>, users: seq<Attrs>, i: nat)
    requires ForeignKeysOk(recipes, users) && i < |recipes|
    ensures ForeignKeysOk(recipes[..i] + recipes[i + 1..], users)
  {
    var rest := recipes[..i] + recipes[i + 1..];
    forall k | 0 <= k < |rest| ensures LinkOk(rest[k], users) {
      assert rest[k] == recipes[if k < i then k else k + 1];
    }
  }

  // ---------------------------------------------------------------------------------------

  /** The stored state a session reaches: both tables in storage order, their counters and the clock. */
  class Database {
    var recipes: seq<Attrs>
    var users: seq<Attrs>
    /** The next value of each table's AUTO_INCREMENT key. */
    var nextRecipeId: int
    var nextUserId: int
    /** The time the next committed write stamps; it only moves forward. */
    var clock: int

    ghost predicate Valid()
      reads this
    {
      && TableOk(Recipe, recipes, nextRecipeId)
      && TableOk(User, users, nextUserId)
      && ForeignKeysOk(recipes, users)
    }

    constructor ()
      ensures Valid()
      ensures recipes == [] && users == [] && nextRecipeId == 1 && nextUserId == 1 && clock == 0
    {
      recipes, users := [], [];
      nextRecipeId, nextUserId := 1, 1;
      clock := 0;
    }

    function Rows(e: Entity): seq<Attrs>
      reads this
    {
      if e == Recipe then recipes else users
    }

    function NextId(e: Entity): int
      reads this
    {
      if e == Recipe then nextRecipeId else nextUserId
    }
  }

  /** `CRUDBase(model)`: the accessor for one mapped class; `crud.recipe` is `CrudBase(Recipe, db)`. */
  class CrudBase {
    const model: Entity
    const db: Database

    constructor (model: Entity, db: Database)
      ensures this.model == model && this.db == db
    {
      this.model := model;
      this.db := db;
    }

    /** `get(id)`: the stored record with that key, or None. */
    function Get(id: int): (r: Option<Attrs>)
      reads db
      ensures r.Some? <==> exists i :: 0 <= i < |db.Rows(model)| && HasId(db.Rows(model)[i], id)
      ensures r.Some? ==> r.value in db.Rows(model) && HasId(r.value, id)
    {
      match IndexOf(db.Rows(model), id)
      case Some(i) => Some(db.Rows(model)[i])
      case None => None
    }

    /** `get_multi(skip, limit)`: the rows at positions [skip, skip + limit) in storage order. */
    function GetMulti(skip: nat := 0, limit: nat := 100): (page: seq<Attrs>)
      reads db
      ensures |page| <= limit
      ensures |page| == if skip >= |db.Rows(model)| then 0 else if limit < |db.Rows(model)| - skip then limit else |db.Rows(model)| - skip
      ensures forall k :: 0 <= k < |page| ==> page[k] == db.Rows(model)[skip + k]
    {
      var rows := db.Rows(model);
      if skip >= |rows| then [] else Take(rows[skip..], limit)
    }

    /** `create(obj_in)`: insert one record built from the payload, with a fresh key and the insert defaults. */
    method Create(input: Attrs) returns (r: Result<Attrs, DbError>)
      requires db.Valid()
      requires input.Keys <= PayloadColumns(model)
      modifies db
      ensures db.Valid()
      ensures
        var row := NewRecord(model, input, old(db.NextId(model)), old(db.clock));
        if Admissible(model, row, old(db.users)) then
          && r == Success(row)
          && db.Rows(model) == old(db.Rows(model)) + [row]
          && db.Rows(Other(model)) == old(db.Rows(Other(model)))
          && db.NextId(model) == old(db.NextId(model)) + 1
          && db.NextId(Other(model)) == old(db.NextId(Other(model)))
          && db.clock == old(db.clock) + 1
        else
          r == Failure(IntegrityError) && unchanged(db)
      ensures r.Success? ==> forall i :: 0 <= i < |old(db.Rows(model))| ==> !HasId(old(db.Rows(model))[i], old(db.NextId(model)))
      ensures r.Success? ==> Get(old(db.NextId(model))) == Some(r.value)
    {
      var id := db.NextId(model);
      var row := NewRecord(model, input, id, db.clock);
      if !Admissible(model, row, db.users) {
        return Failure(IntegrityError);
      }
      ghost var before := db.Rows(model);
      AppendFresh(model, before, id, row);
      if model == Recipe {
        LinksAfterRecipeAppend(db.recipes, db.users, row);
        db.recipes := db.recipes + [row];
        db.nextRecipeId := db.nextRecipeId + 1;
      } else {
        LinksSurviveGrowth(db.recipes, db.users, row);
        db.users := db.users + [row];
        db.nextUserId := db.nextUserId + 1;
      }
      db.clock := db.clock + 1;
      r := Success(row);
      IndexOfUnique(db.Rows(model), id, |before|);
    }

    /** The loop of `update`: `setattr(db_obj, field, update_data[field])` for each encoded field the payload has. */
    static method CopyFields(obj: Attrs, data: Attrs) returns (merged: Attrs)
      ensures merged == Merge(obj, data)
    {
      var fields := EncodedFields(obj);
      merged := obj;
      var todo := fields;
      while todo != {}
        invariant todo <= fields
        invariant merged == MergeFields(obj, data, fields - todo)
        decreases |todo|
      {
        var f :| f in todo;
        if f in data {
          merged := merged[f := data[f]];
        }
        todo := todo - {f};
      }
      assert fields - todo == fields;
    }

    /**
     * `update(db_obj, obj_in)` for the stored record with key `id`: the loop copies each encoded
     * field of the record that the payload has; the commit stamps `updated_at`.
     */
    method Update(id: int, input: UpdateInput) returns (r: Result<Attrs, DbError>)
      requires db.Valid()
      modifies db
      ensures db.Valid()
      ensures IndexOf(old(db.Rows(model)), id).None? ==> r == Failure(StaleData) && unchanged(db)
      ensures IndexOf(old(db.Rows(model)), id).Some? ==>
        var i := IndexOf(old(db.Rows(model)), id).value;
        var row := Persisted(old(db.Rows(model))[i], UpdateData(input), old(db.clock));
        if HasId(row, id) && Admissible(model, row, old(db.users)) then
          && r == Success(row)
          && db.Rows(model) == old(db.Rows(model))[i := row]
          && db.Rows(Other(model)) == old(db.Rows(Other(model)))
          && db.NextId(model) == old(db.NextId(model))
          && db.NextId(Other(model)) == old(db.NextId(Other(model)))
          && db.clock == old(db.clock) + 1
        else
          r == Failure(IntegrityError) && unchanged(db)
    {
      var rows := db.Rows(model);
      var found := IndexOf(rows, id);
      if found.None? {
        return Failure(StaleData);
      }
      var i := found.value;
      var obj := rows[i];
      var data := UpdateData(input);
      var merged := CopyFields(obj, data);
      var row := if StampSet(obj, data) then merged else Touch(merged, db.clock);
      if !(HasId(row, id) && Admissible(model, row, db.users)) {
        return Failure(IntegrityError);
      }
      ReplaceSameKey(model, rows, db.NextId(model), i, row);
      if model == Recipe {
        LinksAfterRecipeReplace(db.recipes, db.users, i, row);
        db.recipes := db.recipes[i := row];
      } else {
        LinksAfterUserReplace(db.recipes, db.users, db.users[i := row]);
        db.users := db.users[i := row];
      }
      db.clock := db.clock + 1;
      r := Success(row);
    }

    /**
     * `remove(id)`: hard-delete the stored record with key `id` and return its last state.
     * Deleting a user also deletes its recipes (`cascade="all,delete-orphan"` on `User.recipes`).
     */
    method Remove(id: int) returns (r: Result<Attrs, DbError>)
      requires db.Valid()
      modifies db
      ensures db.Valid()
      ensures IndexOf(old(db.Rows(model)), id).None? ==> r == Failure(UnmappedInstance) && unchanged(db)
      ensures IndexOf(old(db.Rows(model)), id).Some? ==>
        var i := IndexOf(old(db.Rows(model)), id).value;
        && r == Success(old(db.Rows(model))[i])
        && db.Rows(model) == old(db.Rows(model))[..i] + old(db.Rows(model))[i + 1..]
        && (model == User ==> db.recipes == Filter(old(db.recipes), NotSubmittedByUser(id)))
        && (model == Recipe ==> db.users == old(db.users))
        && db.nextRecipeId == old(db.nextRecipeId) && db.nextUserId == old(db.nextUserId)
        && db.clock == old(db.clock)
      ensures r.Success? ==> Get(id).None?
    {
      var rows := db.Rows(model);
      var found := IndexOf(rows, id);
      if found.None? {
        return Failure(UnmappedInstance);
      }
      var i := found.value;
      RemoveAt(model, rows, db.NextId(model), i);
      if model == Recipe {
        RemoveRecipeKeepsLinks(db.recipes, db.users, i);
        db.recipes := rows[..i] + rows[i + 1..];
      } else {
        CascadeKeepsLinks(db.recipes, db.users, i);
        FilterKeepsTable(Recipe, db.recipes, db.nextRecipeId, NotSubmittedByUser(id));
        db.recipes := Filter(db.recipes, NotSubmittedByUser(id));
        db.users := rows[..i] + rows[i + 1..];
      }
      r := Success(rows[i]);
    }

    /**
     * `RoraimaBase.delete()` on the stored record with key `id`: flag it and stamp `deleted_at`,
     * then `save()` flushes an UPDATE, which also stamps `updated_at`. The row stays in the table.
     */
    method SoftDelete(id: int) returns (r: Result<Attrs, DbError>)
      requires db.Valid()
      modifies db
      ensures db.Valid()
      ensures IndexOf(old(db.Rows(model)), id).None? ==> r == Failure(StaleData) && unchanged(db)
      ensures IndexOf(old(db.Rows(model)), id).Some? ==>
        var i := IndexOf(old(db.Rows(model)), id).value;
        var row := Touch(MarkDeleted(old(db.Rows(model))[i], old(db.clock)), old(db.clock));
        && r == Success(row)
        && db.Rows(model) == old(db.Rows(model))[i := row]
        && db.Rows(Other(model)) == old(db.Rows(Other(model)))
        && db.nextRecipeId == old(db.nextRecipeId) && db.nextUserId == old(db.nextUserId)
        && db.clock == old(db.clock) + 1
      ensures r.Success? ==> Get(id) == Some(r.value)
    {
      var rows := db.Rows(model);
      var found := IndexOf(rows, id);
      if found.None? {
        return Failure(StaleData);
      }
      var i := found.value;
      var row := Touch(MarkDeleted(rows[i], db.clock), db.clock);
      SoftDeleteWellFormed(model, rows[i], db.clock);
      ReplaceSameKey(model, rows, db.NextId(model), i, row);
      if model == Recipe {
        assert LinkOk(rows[i], db.users);
        LinksAfterRecipeReplace(db.recipes, db.users, i, row);
        db.recipes := rows[i := row];
      } else {
        LinksAfterUserReplace(db.recipes, db.users, rows[i := row]);
        db.users := rows[i := row];
      }
      db.clock := db.clock + 1;
      r := Success(row);
      IndexOfUnique(db.Rows(model), id, i);
    }
  }
}

=== FILE: exceptions.dfy ===
/**
 * The service's exception family: the kinds and their single-inheritance hierarchy, the default
 * message of each kind, and what constructing one computes: the message (the given one or the
 * kind's default, `%`-formatted with the keyword arguments, the raw template kept when formatting
 * fails and format errors are not fatal) and, for the two kinds that carry it, `retry_after`.
 */
module Exceptions {
  import opened Wrappers
  import opened Text

  // ---------------------------------------------------------------------------------------
  // The kinds and their hierarchy

  datatype Kind =
    | RoraimaException
    | MissingCredentialError
    | BadAuthStrategy
    | NotFound
    | Duplicate
    | Conflict
    | AuthBadRequest
    | AuthUrlNotFound
    | AuthorizationFailure
    | NotAuthenticated
    | Forbidden
    | ProtectedMetadefNamespaceDelete
    | ProtectedMetadefNamespacePropDelete
    | ProtectedMetadefObjectDelete
    | ProtectedMetadefResourceTypeAssociationDelete
    | ProtectedMetadefResourceTypeSystemDelete
    | ProtectedMetadefTagDelete
    | Invalid
    | InvalidSortKey
    | InvalidSortDir
    | InvalidPropertyProtectionConfiguration
    | InvalidFilterOperatorValue
    | InvalidFilterRangeValue
    | InvalidOptionValue
    | ReadonlyProperty
    | ReservedProperty
    | AuthorizationRedirect
    | ClientConnectionError
    | ClientConfigurationError
    | MultipleChoices
    | LimitExceeded
    | ServiceUnavailable
    | ServerError
    | UnexpectedStatus
    | InvalidContentType
    | BadRegistryConnectionConfiguration
    | BadDriverConfiguration
    | MaxRedirectsExceeded
    | InvalidRedirect
    | NoServiceEndpoint
    | WorkerCreationFailure
    | SchemaLoadError
    | InvalidObject
    | FailedToGetScrubberJobs
    | SIGHUPInterrupt
    | RPCError
    | DuplicateLocation
    | InvalidParameterValue
    | RoraimaEndpointNotFound

  /** The direct base class of each kind; the root has none among the kinds. */
  function Parent(k: Kind): (r: Option<Kind>)
    ensures r.None? <==> k == RoraimaException
    ensures r.Some? ==> r.value in {RoraimaException, Forbidden, Invalid, Duplicate, NotFound}
  {
    match k
    case RoraimaException => None
    case ProtectedMetadefNamespaceDelete => Some(Forbidden)
    case ProtectedMetadefNamespacePropDelete => Some(Forbidden)
    case ProtectedMetadefObjectDelete => Some(Forbidden)
    case ProtectedMetadefResourceTypeAssociationDelete => Some(Forbidden)
    case ProtectedMetadefResourceTypeSystemDelete => Some(Forbidden)
    case ProtectedMetadefTagDelete => Some(Forbidden)
    case ReadonlyProperty => Some(Forbidden)
    case ReservedProperty => Some(Forbidden)
    case InvalidSortKey => Some(Invalid)
    case InvalidSortDir => Some(Invalid)
    case InvalidPropertyProtectionConfiguration => Some(Invalid)
    case InvalidFilterOperatorValue => Some(Invalid)
    case InvalidFilterRangeValue => Some(Invalid)
    case InvalidOptionValue => Some(Invalid)
    case InvalidParameterValue => Some(Invalid)
    case DuplicateLocation => Some(Duplicate)
    case RoraimaEndpointNotFound => Some(NotFound)
    case _ => Some(RoraimaException)
  }

  /** The number of inheritance steps from the kind up to the root. */
  function Depth(k: Kind): nat {
    match Parent(k)
    case None => 0
    case Some(Forbidden) => 2
    case Some(Invalid) => 2
    case Some(Duplicate) => 2
    case Some(NotFound) => 2
    case Some(_) => 1
  }

  /** A base class is one step nearer the root than the kind itself. */
  lemma ParentIsShallower(k: Kind)
    ensures Parent(k).Some? ==> Depth(Parent(k).value) < Depth(k)
  {
  }

  /** `issubclass(k, a)`: `a` is `k` or one of its ancestors. */
  predicate IsA(k: Kind, a: Kind)
    decreases Depth(k)
  {
    k == a || (Parent(k).Some? && IsA(Parent(k).value, a))
  }

  /** Every kind's chain of base classes ends at the root. */
  lemma {:induction false} EveryKindIsRoraimaException(k: Kind)
    ensures IsA(k, RoraimaException)
    decreases Depth(k)
  {
    if k != RoraimaException {
      ParentIsShallower(k);
      EveryKindIsRoraimaException(Parent(k).value);
    }
  }

  /** Nothing but the root itself is an ancestor of the root. */
  lemma RootHasNoAncestor(a: Kind)
    requires IsA(RoraimaException, a)
    ensures a == RoraimaException
  {
  }

  lemma {:induction false} IsATransitive(k: Kind, a: Kind, b: Kind)
    requires IsA(k, a) && IsA(a, b)
    ensures IsA(k, b)
    decreases Depth(k)
  {
    if k != a {
      ParentIsShallower(k);
      IsATransitive(Parent(k).value, a, b);
    }
  }

  /** Single inheritance: any two ancestors of a kind are related to each other. */
  lemma {:induction false} AncestorsFormAChain(k: Kind, a: Kind, b: Kind)
    requires IsA(k, a) && IsA(k, b)
    ensures IsA(a, b) || IsA(b, a)
    decreases Depth(k)
  {
    if k != a && k != b {
      ParentIsShallower(k);
      AncestorsFormAChain(Parent(k).value, a, b);
    }
  }

  /** The protected-metadata, read-only and reserved kinds refine `Forbidden`. */
  lemma ForbiddenRefinements(k: Kind)
    requires k in {ProtectedMetadefNamespaceDelete, ProtectedMetadefNamespacePropDelete, ProtectedMetadefObjectDelete,
                   ProtectedMetadefResourceTypeAssociationDelete, ProtectedMetadefResourceTypeSystemDelete,
                   ProtectedMetadefTagDelete, ReadonlyProperty, ReservedProperty}
    ensures IsA(k, Forbidden) && IsA(k, RoraimaException) && !IsA(k, Invalid) && !IsA(k, NotFound)
  {
    assert Parent(k) == Some(Forbidden);
    DirectChildren();
  }

  /** `Forbidden`, `Invalid` and `NotFound` derive directly from the root and not from each other. */
  lemma DirectChildren()
    ensures Parent(Forbidden) == Some(RoraimaException) && Parent(Invalid) == Some(RoraimaException)
    ensures Parent(NotFound) == Some(RoraimaException)
    ensures IsA(Forbidden, RoraimaException) && !IsA(Forbidden, Invalid) && !IsA(Forbidden, NotFound)
    ensures IsA(Invalid, RoraimaException) && !IsA(Invalid, Forbidden) && !IsA(Invalid, NotFound)
    ensures IsA(NotFound, RoraimaException) && !IsA(NotFound, Invalid) && !IsA(NotFound, Forbidden)
  {
    assert !IsA(RoraimaException, Forbidden) && !IsA(RoraimaException, Invalid) && !IsA(RoraimaException, NotFound);
  }

  /** The sort and filter kinds refine `Invalid`. */
  lemma InvalidRefinements(k: Kind)
    requires k in {InvalidSortKey, InvalidSortDir, InvalidFilterOperatorValue, InvalidFilterRangeValue}
    ensures IsA(k, Invalid) && IsA(k, RoraimaException) && !IsA(k, Forbidden)
  {
    assert Parent(k) == Some(Invalid);
    DirectChildren();
  }

  lemma EndpointNotFoundIsNotFound()
    ensures IsA(RoraimaEndpointNotFound, NotFound) && !IsA(RoraimaEndpointNotFound, Invalid)
  {
    DirectChildren();
  }

  // ---------------------------------------------------------------------------------------
  // Default messages

  /** The class attribute `message` of each kind (translation is the identity here). */
  function DefaultMessage(k: Kind): string {
    match k
    case RoraimaException => "An unknown exception occurred"
    case MissingCredentialError => "Missing required credential: %(required)s"
    case BadAuthStrategy => "Incorrect auth strategy, expected \"%(expected)s\" but received \"%(received)s\""
    case NotFound => "An object with the specified identifier was not found."
    case Duplicate => "An object with the same identifier already exists."
    case Conflict => "An object with the same identifier is currently being operated on."
    case AuthBadRequest => "Connect error/bad request to Auth service at URL %(url)s."
    case AuthUrlNotFound => "Auth service at URL %(url)s not found."
    case AuthorizationFailure => "Authorization failed."
    case NotAuthenticated => "You are not authenticated."
    case Forbidden => "You are not authorized to complete %(action)s action."
    case ProtectedMetadefNamespaceDelete => "Metadata definition namespace %(namespace)s is protected and cannot be deleted."
    case ProtectedMetadefNamespacePropDelete => "Metadata definition property %(property_name)s is protected and cannot be deleted."
    case ProtectedMetadefObjectDelete => "Metadata definition object %(object_name)s is protected and cannot be deleted."
    case ProtectedMetadefResourceTypeAssociationDelete =>
      "Metadata definition resource-type-association %(resource_type)s is protected and cannot be deleted."
    case ProtectedMetadefResourceTypeSystemDelete =>
      "Metadata definition resource-type %(resource_type_name)s is a seeded-system type and cannot be deleted."
    case ProtectedMetadefTagDelete => "Metadata definition tag %(tag_name)s is protected and cannot be deleted."
    case Invalid => "Data supplied was not valid."
    case InvalidSortKey => "Sort key supplied was not valid."
    case InvalidSortDir => "Sort direction supplied was not valid."
    case InvalidPropertyProtectionConfiguration => "Invalid configuration in property protection file."
    case InvalidFilterOperatorValue => "Unable to filter using the specified operator."
    case InvalidFilterRangeValue => "Unable to filter using the specified range."
    case InvalidOptionValue => "Invalid value for option %(option)s: %(value)s"
    case ReadonlyProperty => "Attribute '%(property)s' is read-only."
    case ReservedProperty => "Attribute '%(property)s' is reserved."
    case AuthorizationRedirect => "Redirecting to %(uri)s for authorization."
    case ClientConnectionError => "There was an error connecting to a server"
    case ClientConfigurationError => "There was an error configuring the client."
    case MultipleChoices =>
      "The request returned a 302 Multiple Choices. This generally means that you have not included a version "
      + "indicator in a request URI.\n\nThe body of response returned:\n%(body)s"
    case LimitExceeded =>
      "The request returned a 413 Request Entity Too Large. This generally means that rate limiting or a quota "
      + "threshold was breached.\n\nThe response body:\n%(body)s"
    case ServiceUnavailable =>
      "The request returned 503 Service Unavailable. This generally occurs on service overload or other transient outage."
    case ServerError => "The request returned 500 Internal Server Error."
    case UnexpectedStatus => "The request returned an unexpected status: %(status)s.\n\nThe response body:\n%(body)s"
    case InvalidContentType => "Invalid content type %(content_type)s"
    case BadRegistryConnectionConfiguration => "Registry was not configured correctly on API server. Reason: %(reason)s"
    case BadDriverConfiguration => "Driver %(driver_name)s could not be configured correctly. Reason: %(reason)s"
    case MaxRedirectsExceeded => "Maximum redirects (%(redirects)s) was exceeded."
    case InvalidRedirect => "Received invalid HTTP redirect."
    case NoServiceEndpoint => "Response from Keystone does not contain a roraima endpoint."
    case WorkerCreationFailure => "Server worker creation failed: %(reason)s."
    case SchemaLoadError => "Unable to load schema: %(reason)s"
    case InvalidObject => "Provided object does not match schema '%(schema)s': %(reason)s"
    case FailedToGetScrubberJobs => "Scrubber encountered an error while trying to fetch scrub jobs."
    case SIGHUPInterrupt => "System SIGHUP signal received."
    case RPCError => "%(cls)s exception was raised in the last rpc call: %(val)s"
    case DuplicateLocation => "The location %(location)s already exists"
    case InvalidParameterValue => "Invalid value '%(value)s' for parameter '%(param)s': %(extra_msg)s"
    case RoraimaEndpointNotFound => "%(interface)s roraima endpoint not found for region %(region)s"
  }

  // ---------------------------------------------------------------------------------------
  // `%` formatting with a mapping

  /** A keyword argument's value. */
  datatype Arg = IntArg(i: int) | StrArg(s: string) | BoolArg(b: bool) | NoneArg

  /** `str(v)`. */
  function Str(v: Arg): string {
    match v
    case IntArg(i) => IntToString(i)
    case StrArg(s) => s
    case BoolArg(b) => if b then "True" else "False"
    case NoneArg => "None"
  }

  /** Python truthiness. */
  predicate Truthy(v: Arg) {
    match v
    case IntArg(i) => i != 0
    case StrArg(s) => s != ""
    case BoolArg(b) => b
    case NoneArg => false
  }

  /** Position of the first `c` in `s`. */
  function FindChar(s: string, c: char): (k: Option<nat>)
    ensures k.Some? ==> k.value < |s| && s[k.value] == c && c !in s[..k.value]
    ensures k.None? <==> c !in s
    decreases |s|
  {
    if s == [] then None
    else if s[0] == c then Some(0)
    else match FindChar(s[1..], c)
      case None => None
      case Some(j) =>
        assert s[..j + 1] == [s[0]] + s[1..][..j];
        Some(j + 1)
  }

  function Prepend(prefix: string, rest: Option<string>): Option<string> {
    match rest
    case None => None
    case Some(s) => Some(prefix + s)
  }

  /**
   * `template % kwargs`, scanning left to right: ordinary characters are copied, `%%` gives `%`,
   * `%(key)s` gives `str(kwargs[key])`. A missing key, a key containing `(`, or any other use of
   * `%`, is a formatting error (None).
   */
  function Format(template: string, kwargs: map<string, Arg>): Option<string>
    decreases |template|
  {
    if template == [] then Some([])
    else if template[0] != '%' then Prepend([template[0]], Format(template[1..], kwargs))
    else if |template| >= 2 && template[1] == '%' then Prepend("%", Format(template[2..], kwargs))
    else if |template| >= 2 && template[1] == '(' then
      match FindChar(template[2..], ')')
      case None => None
      case Some(j) =>
        var close := j + 2;
        if close + 1 < |template| && template[close + 1] == 's' && '(' !in template[2..close] && template[2..close] in kwargs then
          Prepend(Str(kwargs[template[2..close]]), Format(template[close + 2..], kwargs))
        else None
    else None
  }

  /** A template described piece by piece: a plain character, an escaped `%`, or a named placeholder. */
  datatype Piece = Lit(c: char) | Percent | Key(name: string)

  /** The pieces a template can be written from: plain characters other than `%`, key names without parentheses. */
  predicate Writable(ps: seq<Piece>) {
    forall i :: 0 <= i < |ps| ==> match ps[i]
      case Lit(c) => c != '%'
      case Percent => true
      case Key(name) => ')' !in name && '(' !in name
  }

  /** The template text that spells the pieces. */
  function Template(ps: seq<Piece>): string
    decreases |ps|
  {
    if ps == [] then []
    else
      match ps[0]
      case Lit(c) => [c] + Template(ps[1..])
      case Percent => "%%" + Template(ps[1..])
      case Key(name) => "%(" + name + ")s" + Template(ps[1..])
  }

  /** Every placeholder of the pieces names a bound keyword. */
  predicate Bound(ps: seq<Piece>, kwargs: map<string, Arg>) {
    forall i :: 0 <= i < |ps| && ps[i].Key? ==> ps[i].name in kwargs
  }

  /** The intended result: each placeholder replaced by its value, everything else as written. */
  function Expand(ps: seq<Piece>, kwargs: map<string, Arg>): string
    requires Bound(ps, kwargs)
    decreases |ps|
  {
    if ps == [] then []
    else
      match ps[0]
      case Lit(c) => [c] + Expand(ps[1..], kwargs)
      case Percent => "%" + Expand(ps[1..], kwargs)
      case Key(name) => Str(kwargs[name]) + Expand(ps[1..], kwargs)
  }

  lemma WritableTail(ps: seq<Piece>)
    requires Writable(ps) && ps != []
    ensures Writable(ps[1..])
  {
    forall i | 0 <= i < |ps| - 1 ensures ps[1..][i] == ps[i + 1] {
    }
  }

  /** Formatting the template of some pieces consumes exactly the first piece's spelling. */
  lemma FormatStep(ps: seq<Piece>, kwargs: map<string, Arg>)
    requires Writable(ps) && ps != []
    ensures ps[0].Lit? ==> Format(Template(ps), kwargs) == Prepend([ps[0].c], Format(Template(ps[1..]), kwargs))
    ensures ps[0].Percent? ==> Format(Template(ps), kwargs) == Prepend("%", Format(Template(ps[1..]), kwargs))
    ensures ps[0].Key? && ps[0].name in kwargs ==>
      Format(Template(ps), kwargs) == Prepend(Str(kwargs[ps[0].name]), Format(Template(ps[1..]), kwargs))
    ensures ps[0].Key? && ps[0].name !in kwargs ==> Format(Template(ps), kwargs).None?
  {
    var t := Template(ps);
    var rest := Template(ps[1..]);
    match ps[0]
    case Lit(c) =>
      assert t[1..] == rest;
    case Percent =>
      assert t[2..] == rest;
    case Key(name) =>
      assert ')' !in name && '(' !in name by {
        assert ps[0] == Key(name);
      }
      FormatKeyStep(name, rest, kwargs);
  }

  /** A placeholder at the head of a template is replaced by its value, or fails when unbound. */
  lemma FormatKeyStep(name: string, rest: string, kwargs: map<string, Arg>)
    requires ')' !in name && '(' !in name
    ensures name in kwargs ==> Format("%(" + name + ")s" + rest, kwargs) == Prepend(Str(kwargs[name]), Format(rest, kwargs))
    ensures name !in kwargs ==> Format("%(" + name + ")s" + rest, kwargs).None?
  {
    var t := "%(" + name + ")s" + rest;
    assert t[2..] == name + [')'] + ("s" + rest);
    FindAfter(name, ')', "s" + rest);
    assert t[2..2 + |name|] == name;
    assert t[2 + |name| + 2..] == rest;
    FormatAtKey(t, kwargs, |name| + 2);
  }

  /** One unfolding of `Format` at a well-formed placeholder ending at index `close`. */
  lemma FormatAtKey(t: string, kwargs: map<string, Arg>, close: nat)
    requires 2 <= close && close + 1 < |t| && t[0] == '%' && t[1] == '('
    requires FindChar(t[2..], ')') == Some(close - 2) && t[close + 1] == 's' && '(' !in t[2..close]
    ensures t[2..close] in kwargs ==> Format(t, kwargs) == Prepend(Str(kwargs[t[2..close]]), Format(t[close + 2..], kwargs))
    ensures t[2..close] !in kwargs ==> Format(t, kwargs).None?
  {
  }

  /** Formatting a template whose placeholders are all bound substitutes each of them and keeps the rest. */
  lemma {:induction false} FormatExpands(ps: seq<Piece>, kwargs: map<string, Arg>)
    requires Writable(ps) && Bound(ps, kwargs)
    ensures Format(Template(ps), kwargs) == Some(Expand(ps, kwargs))
    decreases |ps|
  {
    if ps != [] {
      WritableTail(ps);
      assert Bound(ps[1..], kwargs) by {
        forall i | 0 <= i < |ps| - 1 ensures ps[1..][i] == ps[i + 1] {
        }
      }
      FormatExpands(ps[1..], kwargs);
      FormatStep(ps, kwargs);
    }
  }

  /** Formatting fails when a placeholder names a key that was not passed. */
  lemma {:induction false} FormatUnbound(ps: seq<Piece>, kwargs: map<string, Arg>, k: nat)
    requires Writable(ps) && k < |ps| && ps[k].Key? && ps[k].name !in kwargs
    ensures Format(Template(ps), kwargs).None?
    decreases |ps|
  {
    FormatStep(ps, kwargs);
    if k > 0 {
      WritableTail(ps);
      assert ps[1..][k - 1] == ps[k];
      FormatUnbound(ps[1..], kwargs, k - 1);
    }
  }

  lemma {:induction false} FindAfter(a: string, c: char, b: string)
    requires c !in a
    ensures FindChar(a + [c] + b, c) == Some(|a|)
    decreases |a|
  {
    if a != [] {
      FindAfter(a[1..], c, b);
      assert (a + [c] + b)[1..] == a[1..] + [c] + b;
      assert a[0] != c;
    }
  }

  /** Text without `%` is its own formatting, whatever the arguments. */
  lemma {:induction false} FormatPlainText(t: string, kwargs: map<string, Arg>)
    requires '%' !in t
    ensures Format(t, kwargs) == Some(t)
    decreases |t|
  {
    if t != [] {
      assert t[0] != '%';
      FormatPlainText(t[1..], kwargs);
      assert [t[0]] + t[1..] == t;
    }
  }

  /** Plain text in front of a template is copied through, and formatting proceeds behind it. */
  lemma {:induction false} FormatPlainPrefix(s: string, t: string, kwargs: map<string, Arg>)
    requires '%' !in s
    ensures Format(s + t, kwargs) == Prepend(s, Format(t, kwargs))
    decreases |s|
  {
    if s == [] {
      assert s + t == t;
      match Format(t, kwargs)
      case None =>
      case Some(m) =>
        assert s + m == m;
    } else {
      FormatPlainPrefix(s[1..], t, kwargs);
      assert s[0] in s;
      assert (s + t)[0] == s[0] && (s + t)[1..] == s[1..] + t;
      assert Format(s + t, kwargs) == Prepend([s[0]], Format(s[1..] + t, kwargs));
      match Format(t, kwargs)
      case None =>
      case Some(m) =>
        assert s == [s[0]] + s[1..];
        assert [s[0]] + (s[1..] + m) == s + m;
    }
  }

  // ---------------------------------------------------------------------------------------
  // Construction

  /** `_FATAL_EXCEPTION_FORMAT_ERRORS`. */
  const FatalExceptionFormatErrors: bool := false

  /** Why construction itself raised. */
  datatype ConstructError =
    | FormatError  // the `%` formatting failed and format errors are fatal
    | ValueError   // `int(kwargs['retry'])` on a string that is not an integer

  /** The `retry_after` attribute, which only `LimitExceeded` and `ServiceUnavailable` have. */
  datatype RetryAttr = NoRetryAttr | RetryAfter(seconds: Option<int>)

  /** A constructed exception: its kind, `msg`, the arguments given to `Exception`, and `retry_after`. */
  datatype Exc = Exc(kind: Kind, msg: string, args: seq<string>, retry: RetryAttr)

  /** The template a constructor starts from: the given message unless it is None or empty. */
  function Template0(k: Kind, message: Option<string>): (t: string)
    ensures message.Some? && message.value != "" ==> t == message.value
    ensures message.None? || message.value == "" ==> t == DefaultMessage(k)
  {
    if message.None? || message.value == "" then DefaultMessage(k) else message.value
  }

  /** The message `RoraimaException.__init__` settles on. */
  function ResolveMessage(k: Kind, message: Option<string>, kwargs: map<string, Arg>, fatal: bool): (r: Result<string, ConstructError>)
    ensures kwargs == map[] ==> r == Success(Template0(k, message))
    ensures kwargs != map[] && Format(Template0(k, message), kwargs).Some? ==> r == Success(Format(Template0(k, message), kwargs).value)
    ensures !fatal ==> r.Success?
    ensures !fatal && Format(Template0(k, message), kwargs).None? ==> r == Success(Template0(k, message))
    ensures fatal ==> (r.Failure? <==> kwargs != map[] && Format(Template0(k, message), kwargs).None?)
  {
    var template := Template0(k, message);
    if kwargs == map[] then Success(template)
    else
      match Format(template, kwargs)
      case Some(m) => Success(m)
      case None => if fatal then Failure(FormatError) else Success(template)
  }

  /** `int(v)` for the values that reach it (truthy ones). */
  function PyInt(v: Arg): (r: Result<int, ConstructError>)
    requires Truthy(v)
    ensures v.IntArg? ==> r == Success(v.i)
    ensures v.BoolArg? ==> r == Success(1)
    ensures v.StrArg? && r.Success? ==> ParseInt(v.s) == Some(r.value)
    ensures v.StrArg? && r.Failure? ==> ParseInt(v.s).None? && r.error == ValueError
  {
    match v
    case IntArg(i) => Success(i)
    case BoolArg(_) => Success(1)
    case StrArg(s) =>
      match ParseInt(s)
      case Some(n) => Success(n)
      case None => Failure(ValueError)
  }

  /** `int(kwargs['retry']) if kwargs.get('retry') else None`. */
  function RetryAfterOf(kwargs: map<string, Arg>): (r: Result<Option<int>, ConstructError>)
    ensures !("retry" in kwargs && Truthy(kwargs["retry"])) ==> r == Success(None)
    ensures "retry" in kwargs && kwargs["retry"].IntArg? && kwargs["retry"].i != 0 ==> r == Success(Some(kwargs["retry"].i))
    ensures r.Success? && r.value.Some? ==> "retry" in kwargs && Truthy(kwargs["retry"])
    ensures r.Failure? ==> "retry" in kwargs && kwargs["retry"].StrArg? && ParseInt(kwargs["retry"].s).None?
    ensures "retry" in kwargs && Truthy(kwargs["retry"]) ==>
      && (r.Success? <==> PyInt(kwargs["retry"]).Success?)
      && (r.Success? ==> r.value == Some(PyInt(kwargs["retry"]).value))
  {
    if "retry" in kwargs && Truthy(kwargs["retry"]) then
      match PyInt(kwargs["retry"])
      case Success(n) => Success(Some(n))
      case Failure(e) => Failure(e)
    else Success(None)
  }

  predicate HasRetryAfter(k: Kind) {
    k == LimitExceeded || k == ServiceUnavailable
  }

  /**
   * Constructing an exception of kind `k` with `message` and keyword arguments `kwargs`, with the
   * format-error policy `fatal`: `retry_after` is computed first (and may raise), then the message.
   */
  function Construct(k: Kind, message: Option<string>, kwargs: map<string, Arg>, fatal: bool): (r: Result<Exc, ConstructError>)
    ensures r.Success? ==> r.value.kind == k && r.value.args == [r.value.msg]
    ensures r.Success? ==> Success(r.value.msg) == ResolveMessage(k, message, kwargs, fatal)
    ensures r.Success? ==> (r.value.retry.RetryAfter? <==> HasRetryAfter(k))
    ensures r.Success? && HasRetryAfter(k) ==> Success(r.value.retry.seconds) == RetryAfterOf(kwargs)
    ensures !HasRetryAfter(k) && !fatal ==> r.Success?
    ensures r.Failure? && r.error == ValueError ==> HasRetryAfter(k) && RetryAfterOf(kwargs).Failure?
    ensures r.Success? <==> (!HasRetryAfter(k) || RetryAfterOf(kwargs).Success?) && ResolveMessage(k, message, kwargs, fatal).Success?
    ensures HasRetryAfter(k) && RetryAfterOf(kwargs).Failure? ==> r == Failure(ValueError)
  {
    var retry :=
      if HasRetryAfter(k) then
        match RetryAfterOf(kwargs)
        case Success(seconds) => Success(RetryAfter(seconds))
        case Failure(e) => Failure(e)
      else Success(NoRetryAttr);
    if retry.Failure? then Failure(retry.error)
    else
      match ResolveMessage(k, message, kwargs, fatal)
      case Success(msg) => Success(Exc(k, msg, [msg], retry.value))
      case Failure(e) => Failure(e)
  }

  /** `k(message, **kwargs)` as the service configures it (format errors are not fatal). */
  function Raise(k: Kind, message: Option<string>, kwargs: map<string, Arg>): (r: Result<Exc, ConstructError>)
    ensures !HasRetryAfter(k) ==> r.Success?
    ensures r.Success? && kwargs == map[] ==> r.value.msg == Template0(k, message)
    ensures r.Success? && Format(Template0(k, message), kwargs).None? ==> r.value.msg == Template0(k, message)
    ensures HasRetryAfter(k) ==> (r.Success? <==> RetryAfterOf(kwargs).Success?)
    ensures HasRetryAfter(k) && r.Success? ==> r.value.retry == RetryAfter(RetryAfterOf(kwargs).value)
    ensures HasRetryAfter(k) && RetryAfterOf(kwargs).Failure? ==> r == Failure(ValueError)
  {
    Construct(k, message, kwargs, FatalExceptionFormatErrors)
  }

  // ---------------------------------------------------------------------------------------
  // Consequences for the kinds' own templates

  /** When formatting succeeds, an exception without `retry_after` carries the formatted text. */
  lemma RaiseFormatted(k: Kind, message: Option<string>, kwargs: map<string, Arg>, m: string)
    requires !HasRetryAfter(k) && kwargs != map[]
    requires Format(Template0(k, message), kwargs) == Some(m)
    ensures Raise(k, message, kwargs) == Success(Exc(k, m, [m], NoRetryAttr))
  {
  }

  lemma MissingCredentialTemplate()
    ensures DefaultMessage(MissingCredentialError) == "Missing required credential: " + "%(required)s"
    ensures '%' !in "Missing required credential: "
  {
  }

  /** A missing credential names the required credential, whatever its value. */
  lemma MissingCredentialMessage(required: Arg)
    ensures Raise(MissingCredentialError, None, map["required" := required]).Success?
    ensures Raise(MissingCredentialError, None, map["required" := required]).value.msg == "Missing required credential: " + Str(required)
  {
    var kwargs := map["required" := required];
    var m := "Missing required credential: " + Str(required);
    MissingCredentialFormat(required);
    var t := Template0(MissingCredentialError, None);
    assert t == DefaultMessage(MissingCredentialError);
    assert Format(t, kwargs) == Some(m);
    assert kwargs != map[] by {
      assert "required" in kwargs;
    }
    RaiseFormatted(MissingCredentialError, None, kwargs, m);
  }

  /** The default template of `MissingCredentialError` formats to its prefix followed by the value. */
  lemma MissingCredentialFormat(required: Arg)
    ensures Format(DefaultMessage(MissingCredentialError), map["required" := required])
      == Some("Missing required credential: " + Str(required))
  {
    var kwargs := map["required" := required];
    RequiredPlaceholder(required);
    MissingCredentialTemplate();
    FormatPlainPrefix("Missing required credential: ", "%(required)s", kwargs);
  }

  /** The `%(required)s` placeholder alone formats to the value of `required`. */
  lemma RequiredPlaceholder(required: Arg)
    ensures Format("%(required)s", map["required" := required]) == Some(Str(required))
  {
    var kwargs := map["required" := required];
    var name := "required";
    assert ')' !in name && '(' !in name;
    PlaceholderAlone(name, kwargs);
    assert "%(" + name + ")s" == "%(required)s";
  }

  /** A template that is a single bound placeholder formats to the value's `str`. */
  lemma PlaceholderAlone(name: string, kwargs: map<string, Arg>)
    requires ')' !in name && '(' !in name && name in kwargs
    ensures Format("%(" + name + ")s", kwargs) == Some(Str(kwargs[name]))
  {
    FormatKeyStep(name, [], kwargs);
    assert "%(" + name + ")s" + [] == "%(" + name + ")s";
    assert Format([], kwargs) == Some([]);
    assert Str(kwargs[name]) + [] == Str(kwargs[name]);
  }

  /** A `retry` that is not an integer spelling aborts construction with `ValueError`. */
  lemma NonNumericRetry(k: Kind, message: Option<string>, kwargs: map<string, Arg>)
    requires HasRetryAfter(k) && "retry" in kwargs
    requires kwargs["retry"].StrArg? && kwargs["retry"].s != "" && ParseInt(kwargs["retry"].s).None?
    ensures Raise(k, message, kwargs) == Failure(ValueError)
  {
    RetryRejected(kwargs);
  }

  lemma RetryRejected(kwargs: map<string, Arg>)
    requires "retry" in kwargs && kwargs["retry"].StrArg? && kwargs["retry"].s != ""
    requires ParseInt(kwargs["retry"].s).None?
    ensures RetryAfterOf(kwargs) == Failure(ValueError)
  {
    assert Truthy(kwargs["retry"]);
  }

  /** A `retry` that spells an integer becomes the `retry_after` of a constructed exception. */
  lemma NumericRetry(k: Kind, message: Option<string>, kwargs: map<string, Arg>, n: int)
    requires HasRetryAfter(k) && "retry" in kwargs
    requires kwargs["retry"].StrArg? && ParseInt(kwargs["retry"].s) == Some(n)
    ensures Raise(k, message, kwargs).Success?
    ensures Raise(k, message, kwargs).value.retry == RetryAfter(Some(n))
  {
    assert Truthy(kwargs["retry"]);
    assert RetryAfterOf(kwargs) == Success(Some(n));
  }
}

=== FILE: models.dfy ===
/**
 * The persisted entities: the common record base (lifecycle columns, soft delete, the
 * attribute-map views) and the Recipe and User tables with their relationship.
 *
 * A loaded record is its attribute map (`__dict__`): one entry per column, plus the ORM's
 * private `_sa_instance_state` entry.
 */
module Models {
  import opened Wrappers
  import opened Seqs

  /** A column value as loaded by the ORM; `InstanceState` is the ORM's private bookkeeping object. */
  datatype Value = Null | Int(i: int) | Str(s: string) | Bool(b: bool) | Time(t: int) | InstanceState

  /** A record's attribute map: attribute name to value. */
  type Attrs = map<string, Value>

  /** The mapped classes. */
  datatype Entity = Recipe | User

  // Column names shared by every table.
  const Id: string := "id"
  const CreatedAt: string := "created_at"
  const UpdatedAt: string := "updated_at"
  const DeletedAt: string := "deleted_at"
  const Deleted: string := "deleted"
  // Recipe columns.
  const Label: string := "label"
  const Url: string := "url"
  const Source: string := "source"
  const SubmitterId: string := "submitter_id"
  // User columns.
  const FirstName: string := "first_name"
  const Surname: string := "surname"
  const Email: string := "email"
  const IsSuperuser: string := "is_superuser"
  /** The private attribute `to_dict` removes. */
  const InstanceStateKey: string := "_sa_instance_state"

  const LifecycleColumns: set<string> := {CreatedAt, UpdatedAt, DeletedAt, Deleted}

  /** The columns a creation payload may set: everything but the key and the lifecycle columns. */
  function PayloadColumns(e: Entity): set<string> {
    match e
    case Recipe => {Label, Url, Source, SubmitterId}
    case User => {FirstName, Surname, Email, IsSuperuser}
  }

  function Columns(e: Entity): set<string> {
    {Id} + LifecycleColumns + PayloadColumns(e)
  }

  datatype SqlType = Integer | String | Boolean | DateTime

  function ColumnType(col: string): SqlType {
    if col == Id || col == SubmitterId then Integer
    else if col == CreatedAt || col == UpdatedAt || col == DeletedAt then DateTime
    else if col == Deleted || col == IsSuperuser then Boolean
    else String
  }

  /** `nullable=False` holds for the key, `created_at`, `deleted`, a recipe's `label` and a user's `email`. */
  predicate Nullable(e: Entity, col: string) {
    !(col == Id || col == CreatedAt || col == Deleted || (e == Recipe && col == Label) || (e == User && col == Email))
  }

  predicate HasType(v: Value, t: SqlType) {
    match t
    case Integer => v.Int?
    case String => v.Str?
    case Boolean => v.Bool?
    case DateTime => v.Time?
  }

  /** The value may be stored in that column of that table. */
  predicate Fits(e: Entity, col: string, v: Value) {
    if v == Null then Nullable(e, col) else HasType(v, ColumnType(col))
  }

  /** The columns of `e` in declaration order. */
  function ColumnList(e: Entity): (cols: seq<string>)
    ensures forall c :: c in cols <==> c in Columns(e)
  {
    [Id, CreatedAt, UpdatedAt, DeletedAt, Deleted] +
    match e
    case Recipe => [Label, Url, Source, SubmitterId]
    case User => [FirstName, Surname, Email, IsSuperuser]
  }

  /** Each of `cols` is present in `r` with a value that column accepts. */
  predicate ColumnsFit(e: Entity, r: Attrs, cols: seq<string>)
    decreases |cols|
  {
    cols == [] || (cols[0] in r && Fits(e, cols[0], r[cols[0]]) && ColumnsFit(e, r, cols[1..]))
  }

  /** A loaded record of table `e`: every column present with a value the column accepts. */
  predicate WellFormed(e: Entity, r: Attrs) {
    && InstanceStateKey in r && r[InstanceStateKey] == InstanceState
    && Id in r
    && r[Id].Int?
    && ColumnsFit(e, r, ColumnList(e))
  }

  /** Each listed column of a fitting record is present with a value it accepts. */
  lemma {:induction false} ColumnsFitAt(e: Entity, r: Attrs, cols: seq<string>, k: nat)
    requires ColumnsFit(e, r, cols) && k < |cols|
    ensures cols[k] in r && Fits(e, cols[k], r[cols[k]])
    decreases k
  {
    if k > 0 {
      ColumnsFitAt(e, r, cols[1..], k - 1);
    }
  }

  /** A well-formed record of either table holds a value of the declared type in every column, and
   *  NULL only where the column is nullable; in particular a recipe always has a string `label`. */
  lemma WellFormedColumns(e: Entity, r: Attrs, col: string)
    requires WellFormed(e, r) && col in Columns(e)
    ensures col in r
    ensures r[col] == Null ==> Nullable(e, col)
    ensures r[col] != Null ==> HasType(r[col], ColumnType(col))
    ensures e == Recipe && col == Label ==> r[col].Str?
  {
    var k :| 0 <= k < |ColumnList(e)| && ColumnList(e)[k] == col;
    ColumnsFitAt(e, r, ColumnList(e), k);
  }

  predicate HasId(r: Attrs, id: int) {
    Id in r && r[Id] == Int(id)
  }

  /** No two rows share a primary key. */
  predicate UniqueIds(rows: seq<Attrs>) {
    forall i, j :: 0 <= i < j < |rows| && Id in rows[i] && Id in rows[j] ==> rows[i][Id] != rows[j][Id]
  }

  /** Position of the first row whose primary key is `id` (`filter(model.id == id).first()`). */
  function IndexOf(rows: seq<Attrs>, id: int): (k: Option<nat>)
    ensures k.Some? ==> k.value < |rows| && HasId(rows[k.value], id)
    ensures k.Some? ==> forall j :: 0 <= j < k.value ==> !HasId(rows[j], id)
    ensures k.None? <==> forall j :: 0 <= j < |rows| ==> !HasId(rows[j], id)
    decreases |rows|
  {
    if rows == [] then None
    else if HasId(rows[0], id) then Some(0)
    else match IndexOf(rows[1..], id)
      case None => None
      case Some(k) => Some(k + 1)
  }

  /** With unique keys, the row found is the only one carrying that key. */
  lemma IndexOfUnique(rows: seq<Attrs>, id: int, j: nat)
    requires UniqueIds(rows)
    requires j < |rows| && HasId(rows[j], id)
    ensures IndexOf(rows, id) == Some(j)
  {
  }

  // ---------------------------------------------------------------------------------------
  // Column defaults and the lifecycle columns

  /** The insert-time `default=` of a column; columns without one load as NULL. */
  function InsertDefault(col: string, now: int): Value {
    if col == CreatedAt || col == UpdatedAt then Time(now)
    else if col == Deleted || col == IsSuperuser then Bool(false)
    else Null
  }

  /** The names of the key, the lifecycle columns and the private entry are distinct, and none is a payload column. */
  lemma ReservedNames(e: Entity)
    ensures InstanceStateKey != Id && InstanceStateKey !in LifecycleColumns && Id !in LifecycleColumns
    ensures InstanceStateKey !in PayloadColumns(e) && Id !in PayloadColumns(e)
    ensures forall k :: k in LifecycleColumns ==> k !in PayloadColumns(e)
  {
  }

  /** The record a freshly inserted and refreshed row of table `e` loads as. */
  function NewRecord(e: Entity, input: Attrs, id: int, now: int): (r: Attrs)
    requires input.Keys <= PayloadColumns(e)
    ensures r.Keys == Columns(e) + {InstanceStateKey}
    ensures r[InstanceStateKey] == InstanceState && HasId(r, id)
    ensures r[CreatedAt] == Time(now) && r[UpdatedAt] == Time(now)
    ensures r[Deleted] == Bool(false) && r[DeletedAt] == Null
    ensures forall k :: k in input && input[k] != Null ==> r[k] == input[k]
    ensures forall k :: k in PayloadColumns(e) && (k !in input || input[k] == Null) ==> r[k] == InsertDefault(k, now)
    ensures forall k :: k in input && InsertDefault(k, now) == Null ==> r[k] == input[k]
  {
    ReservedNames(e);
    map k | k in Columns(e) + {InstanceStateKey} ::
      if k == InstanceStateKey then InstanceState
      else if k == Id then Int(id)
      else if k in input && input[k] != Null then input[k]
      else InsertDefault(k, now)
  }

  /** The two assignments of `delete()`: flag the record and stamp the deletion time. */
  function MarkDeleted(r: Attrs, now: int): (r': Attrs)
    ensures r'.Keys == r.Keys + {Deleted, DeletedAt}
    ensures r'[Deleted] == Bool(true) && r'[DeletedAt] == Time(now)
    ensures forall k :: k in r && k != Deleted && k != DeletedAt ==> r'[k] == r[k]
  {
    r[Deleted := Bool(true)][DeletedAt := Time(now)]
  }

  /** `onupdate=` of `updated_at`: an UPDATE that does not set the column stamps it. */
  function Touch(r: Attrs, now: int): (r': Attrs)
    ensures r'.Keys == r.Keys + {UpdatedAt}
    ensures r'[UpdatedAt] == Time(now)
    ensures forall k :: k in r && k != UpdatedAt ==> r'[k] == r[k]
  {
    r[UpdatedAt := Time(now)]
  }

  /** Soft deletion keeps a well-formed record well-formed. */
  lemma SoftDeleteWellFormed(e: Entity, r: Attrs, now: int)
    requires WellFormed(e, r)
    ensures WellFormed(e, Touch(MarkDeleted(r, now), now))
    ensures HasId(Touch(MarkDeleted(r, now), now), r[Id].i)
  {
    StampsFit(e, r, now, ColumnList(e));
  }

  lemma {:induction false} StampsFit(e: Entity, r: Attrs, now: int, cols: seq<string>)
    requires ColumnsFit(e, r, cols)
    ensures ColumnsFit(e, Touch(MarkDeleted(r, now), now), cols)
    decreases |cols|
  {
    if cols != [] {
      StampsFit(e, r, now, cols[1..]);
    }
  }

  // ---------------------------------------------------------------------------------------
  // The attribute-map views

  /** `items()`: the (name, value) pairs of the attribute map, unfiltered. */
  function Items(r: Attrs): (items: set<(string, Value)>)
    ensures forall k, v :: (k, v) in items <==> k in r && r[k] == v
  {
    set k | k in r :: (k, r[k])
  }

  /** `keys()`: the names the pairs of `items()` carry. */
  function Keys(r: Attrs): (ks: set<string>)
    ensures forall k, v :: (k, v) in Items(r) ==> k in ks
    ensures forall k :: k in ks ==> k in r && (k, r[k]) in Items(r)
  {
    r.Keys
  }

  /** `values()`: one value per attribute, duplicates included. */
  ghost function Values(r: Attrs): (vs: multiset<Value>)
    ensures |vs| == |r|
    ensures forall k :: k in r ==> r[k] in vs
    ensures forall v :: v in vs ==> exists k :: k in r && r[k] == v
    ensures forall v :: vs[v] == |KeysWith(r, v)|
    decreases |r|
  {
    if |r| == 0 then multiset{}
    else
      var k :| k in r;
      var rest := r - {k};
      assert r.Keys == rest.Keys + {k};
      var restValues := Values(rest);
      ValuesStep(r, k, restValues);
      multiset{r[k]} + restValues
  }

  /** The attribute names whose value is `v`. */
  ghost function KeysWith(r: Attrs, v: Value): set<string> {
    set k | k in r && r[k] == v
  }

  /** Adding back one attribute adds one occurrence of its value. */
  lemma ValuesStep(r: Attrs, k: string, restValues: multiset<Value>)
    requires k in r
    requires forall v :: restValues[v] == |KeysWith(r - {k}, v)|
    ensures forall v :: (multiset{r[k]} + restValues)[v] == |KeysWith(r, v)|
  {
    forall v ensures (multiset{r[k]} + restValues)[v] == |KeysWith(r, v)| {
      KeysWithRemove(r, k, v);
    }
  }

  lemma KeysWithRemove(r: Attrs, k: string, v: Value)
    requires k in r
    ensures |KeysWith(r, v)| == |KeysWith(r - {k}, v)| + (if r[k] == v then 1 else 0)
  {
    var rest := KeysWith(r - {k}, v);
    assert k !in rest;
    forall x ensures x in KeysWith(r, v) <==> x in rest || (x == k && r[k] == v) {
      if x != k && x in r {
        assert (r - {k})[x] == r[x];
      }
    }
    if r[k] == v {
      assert KeysWith(r, v) == rest + {k};
    } else {
      assert KeysWith(r, v) == rest;
    }
  }

  /** `to_dict()`: a copy of the attribute map without the private entry; `pop` raises without it. */
  function ToDict(r: Attrs): (d: Option<Attrs>)
    ensures d.Some? <==> InstanceStateKey in r
    ensures d.Some? ==> d.value.Keys == r.Keys - {InstanceStateKey}
    ensures d.Some? ==> forall k :: k in d.value ==> d.value[k] == r[k]
  {
    if InstanceStateKey in r then Some(r - {InstanceStateKey}) else None
  }

  /** `to_dict()` agrees with `items()` on everything but the removed pair. */
  lemma ToDictItems(r: Attrs)
    requires InstanceStateKey in r
    ensures Items(ToDict(r).value) == Items(r) - {(InstanceStateKey, r[InstanceStateKey])}
  {
    var d := ToDict(r).value;
    forall p | p in Items(r) - {(InstanceStateKey, r[InstanceStateKey])} ensures p in Items(d) {
      assert p.0 in r && r[p.0] == p.1;
    }
  }

  // ---------------------------------------------------------------------------------------
  // The Recipe.submitter / User.recipes relationship

  /** The recipe's foreign key names user `uid`. */
  predicate SubmittedBy(recipe: Attrs, uid: int) {
    SubmitterId in recipe && recipe[SubmitterId] == Int(uid)
  }

  /** The predicate `SubmittedBy(_, uid)`, as a value to filter with. */
  function SubmittedByUser(uid: int): Attrs -> bool {
    r => SubmittedBy(r, uid)
  }

  /** Its complement: the recipes the cascade of deleting user `uid` keeps. */
  function NotSubmittedByUser(uid: int): Attrs -> bool {
    r => !SubmittedBy(r, uid)
  }

  /** `Recipe.submitter`: the user whose key the recipe's `submitter_id` holds, if any. */
  function Submitter(users: seq<Attrs>, recipe: Attrs): (u: Option<Attrs>)
    ensures u.Some? ==> u.value in users
    ensures u.Some? ==> SubmitterId in recipe && recipe[SubmitterId].Int? && HasId(u.value, recipe[SubmitterId].i)
    ensures u.None? ==> forall j, uid :: 0 <= j < |users| && HasId(users[j], uid) ==> !SubmittedBy(recipe, uid)
  {
    if SubmitterId in recipe && recipe[SubmitterId].Int? then
      match IndexOf(users, recipe[SubmitterId].i)
      case Some(j) => Some(users[j])
      case None => None
    else None
  }

  /** `User.recipes`: the recipes whose `submitter_id` is the user's key, in storage order. */
  function RecipesOf(recipes: seq<Attrs>, user: Attrs): (r: seq<Attrs>)
    requires Id in user && user[Id].Int?
    ensures |r| <= |recipes|
    ensures forall x :: x in r <==> x in recipes && SubmittedBy(x, user[Id].i)
  {
    Filter(recipes, SubmittedByUser(user[Id].i))
  }

  /** `back_populates`: a recipe is among a user's recipes exactly when that user is its submitter. */
  lemma BackPopulates(users: seq<Attrs>, recipes: seq<Attrs>, u: Attrs, r: Attrs)
    requires UniqueIds(users)
    requires u in users && Id in u && u[Id].Int?
    ensures r in RecipesOf(recipes, u) <==> r in recipes && Submitter(users, r) == Some(u)
  {
    var uid := u[Id].i;
    var j :| 0 <= j < |users| && users[j] == u;
    if r in recipes && SubmittedBy(r, uid) {
      IndexOfUnique(users, uid, j);
      var k :| 0 <= k < |recipes| && recipes[k] == r;
      assert SubmittedByUser(uid)(recipes[k]);
    }
    if r in RecipesOf(recipes, u) {
      var k :| 0 <= k < |RecipesOf(recipes, u)| && RecipesOf(recipes, u)[k] == r;
      assert SubmittedByUser(uid)(r);
    }
  }
}

=== FILE: recipe_endpoints.dfy ===
/**
 * The recipe endpoints: fetch one recipe or answer 404, search the first page of recipes by a
 * case-insensitive label keyword, and create a recipe. `recipes` is the accessor bound to the
 * Recipe table (`crud.recipe`).
 */
module RecipeApi {
  import opened Wrappers
  import opened Seqs
  import opened Text
  import opened Models
  import opened Crud

  /** An error answer: an `HTTPException` raised by the handler, or the framework's rejection of a query parameter. */
  datatype ApiError =
    | HttpError(status: nat, detail: string)
    | ValidationError(param: string)

  /** `Query(None, min_length=3)` on `keyword`. */
  const KeywordMinLength: nat := 3

  function NotFoundDetail(recipeId: int): string {
    "Recipe with ID " + IntToString(recipeId) + " not found"
  }

  /** `GET /{recipe_id}`: the stored recipe with that key, or 404. */
  function FetchRecipe(recipes: CrudBase, recipeId: int): (r: Result<Attrs, ApiError>)
    reads recipes.db
    requires recipes.model == Recipe
    ensures r.Success? <==> exists i :: 0 <= i < |recipes.db.recipes| && HasId(recipes.db.recipes[i], recipeId)
    ensures r.Success? ==> r.value in recipes.db.recipes && HasId(r.value, recipeId)
    ensures r.Failure? ==> r.error == HttpError(404, NotFoundDetail(recipeId))
  {
    match recipes.Get(recipeId)
    case Some(recipe) => Success(recipe)
    case None => Failure(HttpError(404, NotFoundDetail(recipeId)))
  }

  /** The 404 detail carries the requested key in decimal, between the fixed prefix and suffix. */
  lemma NotFoundDetailNamesId(recipeId: int)
    ensures var d := NotFoundDetail(recipeId);
      && |d| > |"Recipe with ID "| + |" not found"|
      && d[..|"Recipe with ID "|] == "Recipe with ID "
      && d[|d| - |" not found"|..] == " not found"
      && ParseInt(d[|"Recipe with ID "|..|d| - |" not found"|]) == Some(recipeId)
  {
    var s := IntToString(recipeId);
    var d := NotFoundDetail(recipeId);
    assert d == "Recipe with ID " + s + " not found";
    assert d[|"Recipe with ID "|..|d| - |" not found"|] == s;
    IntToStringRoundTrip(recipeId);
  }

  /** `keyword.lower() in recipe.label.lower()`. */
  predicate LabelMatches(keyword: string, recipe: Attrs) {
    Label in recipe && recipe[Label].Str? && Contains(Lower(recipe[Label].s), Lower(keyword))
  }

  /** The lambda handed to `filter`. */
  function Matching(keyword: string): Attrs -> bool {
    recipe => LabelMatches(keyword, recipe)
  }

  /** `xs[:n]`, where `n` may be None (no bound). */
  function Truncate(xs: seq<Attrs>, n: Option<nat>): (r: seq<Attrs>)
    ensures n.None? ==> r == xs
    ensures n.Some? ==> |r| <= n.value
    ensures |r| <= |xs| && forall i :: 0 <= i < |r| ==> r[i] == xs[i]
    ensures n.Some? && |xs| <= n.value ==> r == xs
  {
    match n
    case None => xs
    case Some(k) => Take(xs, k)
  }

  /** The part of `search_recipes` after the page is loaded. */
  function FilterPage(page: seq<Attrs>, keyword: Option<string>, maxResults: Option<nat>): (res: seq<Attrs>)
    ensures keyword.None? || keyword.value == [] ==> res == page
    ensures IsSubsequence(res, page)
    ensures keyword.Some? && keyword.value != [] ==> forall x :: x in res ==> LabelMatches(keyword.value, x)
    ensures maxResults.Some? && keyword.Some? && keyword.value != [] ==> |res| <= maxResults.value
  {
    if keyword.None? || keyword.value == [] then
      PrefixIsSubsequence(page, |page|);
      assert page[..|page|] == page;
      page
    else
      var matching := Filter(page, Matching(keyword.value));
      var res := Truncate(matching, maxResults);
      FilterIsSubsequence(page, Matching(keyword.value));
      PrefixIsSubsequence(matching, |res|);
      assert res == matching[..|res|];
      SubsequenceTransitive(res, matching, page);
      SubsequenceMembers(res, matching);
      res
  }

  /** With a keyword, a matching record of the page is dropped only by the final truncation. */
  lemma FilterPageComplete(page: seq<Attrs>, keyword: string, maxResults: Option<nat>, x: Attrs)
    requires keyword != [] && x in page && LabelMatches(keyword, x)
    requires maxResults.None? || |page| <= maxResults.value
    ensures x in FilterPage(page, Some(keyword), maxResults)
  {
    var matching := Filter(page, Matching(keyword));
    assert Matching(keyword)(x);
    assert x in matching;
  }

  /** The page `get_multi(limit=max_results)` loads; `limit(None)` loads every row. */
  function LoadedPage(recipes: CrudBase, maxResults: Option<nat>): (page: seq<Attrs>)
    reads recipes.db
    ensures maxResults.None? ==> page == recipes.db.Rows(recipes.model)
    ensures |page| <= |recipes.db.Rows(recipes.model)| && page == recipes.db.Rows(recipes.model)[..|page|]
    ensures maxResults.Some? ==> |page| == if maxResults.value < |recipes.db.Rows(recipes.model)| then maxResults.value else |recipes.db.Rows(recipes.model)|
  {
    var rows := recipes.db.Rows(recipes.model);
    var page := recipes.GetMulti(0, if maxResults.None? then |rows| else maxResults.value);
    assert page == rows[..|page|];
    page
  }

  /** `GET /search/?keyword=&max_results=` (max_results defaults to 10). */
  function SearchRecipes(recipes: CrudBase, keyword: Option<string> := None, maxResults: Option<nat> := Some(10)): (r: Result<seq<Attrs>, ApiError>)
    reads recipes.db
    requires recipes.model == Recipe
    ensures keyword.Some? && |keyword.value| < KeywordMinLength <==> r.Failure?
    ensures r.Failure? ==> r.error == ValidationError("keyword")
    ensures r.Success? ==> IsSubsequence(r.value, LoadedPage(recipes, maxResults))
    ensures r.Success? && keyword.None? ==> r.value == LoadedPage(recipes, maxResults)
    ensures r.Success? && keyword.Some? ==> forall x :: x in r.value ==> LabelMatches(keyword.value, x)
    ensures r.Success? && keyword.Some? ==> forall x :: x in LoadedPage(recipes, maxResults) && LabelMatches(keyword.value, x) ==> x in r.value
    ensures r.Success? && maxResults.Some? ==> |r.value| <= maxResults.value
  {
    if keyword.Some? && |keyword.value| < KeywordMinLength then
      Failure(ValidationError("keyword"))
    else
      var page := LoadedPage(recipes, maxResults);
      var res := FilterPage(page, keyword, maxResults);
      SubsequenceMembers(res, page);
      assert keyword.Some? ==> forall x :: x in page && LabelMatches(keyword.value, x) ==> x in res by {
        if keyword.Some? {
          forall x | x in page && LabelMatches(keyword.value, x) ensures x in res {
            FilterPageComplete(page, keyword.value, maxResults, x);
          }
        }
      }
      Success(res)
  }

  /** A recipe stored beyond the first `max_results` rows is never returned, even when it matches. */
  lemma BeyondPageNeverReturned(recipes: CrudBase, keyword: Option<string>, maxResults: nat, j: nat)
    requires recipes.model == Recipe && recipes.db.Valid()
    requires maxResults <= j < |recipes.db.recipes|
    ensures var r := SearchRecipes(recipes, keyword, Some(maxResults));
      r.Success? ==> recipes.db.recipes[j] !in r.value
  {
    var rows := recipes.db.recipes;
    var page := LoadedPage(recipes, Some(maxResults));
    var r := SearchRecipes(recipes, keyword, Some(maxResults));
    if r.Success? && rows[j] in r.value {
      SubsequenceMembers(r.value, page);
      assert false;
    }
  }

  /** No column a recipe payload may set has an insert default, so a submitted NULL is stored as NULL. */
  lemma RecipeColumnsHaveNoDefault(now: int)
    ensures forall k :: k in PayloadColumns(Recipe) ==> InsertDefault(k, now) == Null
  {
  }

  /**
   * `POST /`: create a recipe from the payload; the created record is what a later fetch of its
   * key returns.
   */
  method CreateRecipe(recipes: CrudBase, recipeIn: Attrs) returns (r: Result<Attrs, DbError>)
    requires recipes.model == Recipe && recipes.db.Valid()
    requires recipeIn.Keys <= PayloadColumns(Recipe)
    modifies recipes.db
    ensures recipes.db.Valid()
    ensures
      var row := NewRecord(Recipe, recipeIn, old(recipes.db.nextRecipeId), old(recipes.db.clock));
      if Admissible(Recipe, row, old(recipes.db.users)) then
        && r == Success(row)
        && recipes.db.recipes == old(recipes.db.recipes) + [row]
        && recipes.db.users == old(recipes.db.users)
      else
        r == Failure(IntegrityError) && unchanged(recipes.db)
    ensures Label !in recipeIn || recipeIn[Label] == Null ==> r == Failure(IntegrityError)
    ensures r.Success? ==> forall k :: k in recipeIn ==> k in r.value && r.value[k] == recipeIn[k]
    ensures r.Success? ==> Id in r.value && r.value[Id].Int? && FetchRecipe(recipes, r.value[Id].i) == Success(r.value)
  {
    ghost var id := recipes.db.NextId(Recipe);
    ghost var row := NewRecord(Recipe, recipeIn, id, recipes.db.clock);
    RecipeColumnsHaveNoDefault(recipes.db.clock);
    if (Label !in recipeIn || recipeIn[Label] == Null) && WellFormed(Recipe, row) {
      WellFormedColumns(Recipe, row, Label);
    }
    r := recipes.Create(recipeIn);
    if r.Success? {
      assert HasId(r.value, id);
    }
  }
}

=== FILE: seqs.dfy ===
/** Order-preserving filtering and subsequences, as used by the search endpoint and the cascade. */
module Seqs {

  /** Python's `filter(p, s)`: the elements of `s` that satisfy `p`, in their original order. */
  function Filter<T(==,!new)>(s: seq<T>, p: T -> bool): (r: seq<T>)
    ensures |r| <= |s|
    ensures forall x :: x in r <==> x in s && p(x)
    decreases |s|
  {
    if s == [] then []
    else
      assert s == [s[0]] + s[1..];
      (if p(s[0]) then [s[0]] else []) + Filter(s[1..], p)
  }

  /** `a` can be obtained from `b` by deleting elements, without reordering. */
  predicate IsSubsequence<T(==)>(a: seq<T>, b: seq<T>)
    decreases |b|
  {
    a == [] || (b != [] && ((a[0] == b[0] && IsSubsequence(a[1..], b[1..])) || IsSubsequence(a, b[1..])))
  }

  /** Python's slice `s[:n]` for a non-negative `n`. */
  function Take<T>(s: seq<T>, n: nat): (r: seq<T>)
    ensures |r| <= n && |r| <= |s|
    ensures |r| == if n <= |s| then n else |s|
    ensures n >= |s| ==> r == s
    ensures forall i :: 0 <= i < |r| ==> r[i] == s[i]
  {
    if n <= |s| then s[..n] else s
  }

  /** Filtering keeps every occurrence of a satisfying element, duplicates included, and no other. */
  lemma {:induction false} FilterMultiset<T(!new)>(s: seq<T>, p: T -> bool)
    ensures forall x :: multiset(Filter(s, p))[x] == if p(x) then multiset(s)[x] else 0
    decreases |s|
  {
    if s != [] {
      FilterMultiset(s[1..], p);
      assert s == [s[0]] + s[1..];
      assert multiset(s) == multiset{s[0]} + multiset(s[1..]);
      var head: seq<T> := if p(s[0]) then [s[0]] else [];
      assert Filter(s, p) == head + Filter(s[1..], p);
      assert multiset(Filter(s, p)) == multiset(head) + multiset(Filter(s[1..], p));
    }
  }

  lemma {:induction false} FilterIsSubsequence<T(!new)>(s: seq<T>, p: T -> bool)
    ensures IsSubsequence(Filter(s, p), s)
    decreases |s|
  {
    if s != [] {
      FilterIsSubsequence(s[1..], p);
      var rest := Filter(s[1..], p);
      if p(s[0]) {
        assert Filter(s, p) == [s[0]] + rest;
        assert ([s[0]] + rest)[1..] == rest;
      } else {
        assert Filter(s, p) == rest;
      }
    }
  }

  /** Every subsequence of a subsequence of `b` is a subsequence of `b`. */
  lemma {:induction false} SubsequenceTransitive<T>(a: seq<T>, b: seq<T>, c: seq<T>)
    requires IsSubsequence(a, b) && IsSubsequence(b, c)
    ensures IsSubsequence(a, c)
    decreases |c|
  {
    if a == [] {
    } else {
      assert b != [] && c != [];
      if b[0] == c[0] && IsSubsequence(b[1..], c[1..]) {
        if a[0] == b[0] && IsSubsequence(a[1..], b[1..]) {
          SubsequenceTransitive(a[1..], b[1..], c[1..]);
        } else {
          SubsequenceTransitive(a, b[1..], c[1..]);
        }
      } else {
        SubsequenceTransitive(a, b, c[1..]);
      }
    }
  }

  /** A prefix of `s` is a subsequence of `s`. */
  lemma {:induction false} PrefixIsSubsequence<T>(s: seq<T>, n: nat)
    requires n <= |s|
    ensures IsSubsequence(s[..n], s)
    decreases n
  {
    if n > 0 {
      PrefixIsSubsequence(s[1..], n - 1);
      assert s[..n][0] == s[0];
      assert s[..n][1..] == s[1..][..n - 1];
    }
  }

  /** Elements of a subsequence are elements of the whole. */
  lemma {:induction false} SubsequenceMembers<T>(a: seq<T>, b: seq<T>)
    requires IsSubsequence(a, b)
    ensures forall x :: x in a ==> x in b
    decreases |b|
  {
    if a != [] {
      if a[0] == b[0] && IsSubsequence(a[1..], b[1..]) {
        SubsequenceMembers(a[1..], b[1..]);
        assert a == [a[0]] + a[1..];
        assert b == [b[0]] + b[1..];
      } else {
        SubsequenceMembers(a, b[1..]);
        assert b == [b[0]] + b[1..];
      }
    }
  }
}

=== FILE: text.dfy ===
/**
 * The string operations the core relies on: ASCII lower-casing (`str.lower`), substring
 * search (`in` on strings), and decimal conversion of integers (`str(int)`, `int(str)`).
 */
module Text {
  import opened Wrappers

  /** `str.lower` on one character, over the ASCII range. */
  function LowerChar(c: char): char {
    if 'A' <= c <= 'Z' then (c as int + 32) as char else c
  }

  function Lower(s: string): (r: string)
    ensures |r| == |s|
    ensures forall i :: 0 <= i < |s| ==> r[i] == LowerChar(s[i])
    ensures forall i :: 0 <= i < |r| ==> !('A' <= r[i] <= 'Z')
  {
    seq(|s|, i requires 0 <= i < |s| => LowerChar(s[i]))
  }

  /** `needle` occurs in `hay` starting at position `i`. */
  predicate OccursAt(hay: string, needle: string, i: int) {
    0 <= i && i + |needle| <= |hay| && hay[i..i + |needle|] == needle
  }

  /** `needle in hay` for Python strings: try each start position from the left. */
  predicate Contains(hay: string, needle: string)
    decreases |hay|
  {
    (|needle| <= |hay| && hay[..|needle|] == needle) || (hay != [] && Contains(hay[1..], needle))
  }

  /** An occurrence the scan finds is a real one. */
  lemma {:induction false} ContainsSound(hay: string, needle: string)
    requires Contains(hay, needle)
    ensures exists i :: OccursAt(hay, needle, i)
    decreases |hay|
  {
    if |needle| <= |hay| && hay[..|needle|] == needle {
      assert OccursAt(hay, needle, 0);
    } else {
      ContainsSound(hay[1..], needle);
      var i :| OccursAt(hay[1..], needle, i);
      assert hay[1..][i..i + |needle|] == hay[i + 1..i + 1 + |needle|];
      assert OccursAt(hay, needle, i + 1);
    }
  }

  /** Every occurrence is found by the scan. */
  lemma {:induction false} ContainsComplete(hay: string, needle: string, i: int)
    requires OccursAt(hay, needle, i)
    ensures Contains(hay, needle)
    decreases |hay|
  {
    if i > 0 {
      assert hay[1..][i - 1..i - 1 + |needle|] == hay[i..i + |needle|];
      ContainsComplete(hay[1..], needle, i - 1);
    }
  }

  /** The scan finds an occurrence exactly when one exists. */
  lemma ContainsIff(hay: string, needle: string)
    ensures Contains(hay, needle) <==> exists i :: OccursAt(hay, needle, i)
  {
    if Contains(hay, needle) {
      ContainsSound(hay, needle);
    }
    if i :| OccursAt(hay, needle, i) {
      ContainsComplete(hay, needle, i);
    }
  }

  predicate IsDigit(c: char) {
    '0' <= c <= '9'
  }

  predicate AllDigits(s: string) {
    forall i :: 0 <= i < |s| ==> IsDigit(s[i])
  }

  function DigitValue(c: char): (d: nat)
    requires IsDigit(c)
    ensures d < 10
  {
    c as int - '0' as int
  }

  function DigitChar(d: nat): (c: char)
    requires d < 10
    ensures IsDigit(c) && DigitValue(c) == d
  {
    ('0' as int + d) as char
  }

  /** `str(n)` for a non-negative integer: its shortest decimal spelling. */
  function NatToString(n: nat): (s: string)
    ensures 1 <= |s| && AllDigits(s)
    ensures |s| > 1 ==> s[0] != '0'
    decreases n
  {
    if n < 10 then [DigitChar(n)] else NatToString(n / 10) + [DigitChar(n % 10)]
  }

  /** `str(i)` (and the `{i}` of an f-string) for any integer. */
  function IntToString(i: int): (s: string)
    ensures 1 <= |s|
    ensures s[0] == '-' <==> i < 0
    ensures var d := if i < 0 then s[1..] else s; |d| >= 1 && AllDigits(d) && (|d| > 1 ==> d[0] != '0')
  {
    if i < 0 then "-" + NatToString(-i) else NatToString(i)
  }

  /** The value of a string of decimal digits, most significant first. */
  function DigitsValue(s: string): nat
    requires AllDigits(s)
    decreases |s|
  {
    if s == [] then 0 else DigitsValue(s[..|s| - 1]) * 10 + DigitValue(s[|s| - 1])
  }

  /**
   * `int(s)` on the subset of spellings modelled here: an optional sign followed by at least
   * one decimal digit. Anything else is the `ValueError` Python raises.
   */
  function ParseInt(s: string): Option<int> {
    if |s| >= 2 && (s[0] == '-' || s[0] == '+') && AllDigits(s[1..]) then
      var magnitude: int := DigitsValue(s[1..]);
      Some(if s[0] == '-' then -magnitude else magnitude)
    else if |s| >= 1 && AllDigits(s) then
      Some(DigitsValue(s))
    else
      None
  }

  lemma {:induction false} DigitsOfNat(n: nat)
    ensures DigitsValue(NatToString(n)) == n
    decreases n
  {
    if n >= 10 {
      DigitsOfNat(n / 10);
      var s := NatToString(n);
      assert s[..|s| - 1] == NatToString(n / 10);
    }
  }

  /** Reading back the decimal spelling of an integer gives the integer. */
  lemma IntToStringRoundTrip(i: int)
    ensures ParseInt(IntToString(i)) == Some(i)
  {
    var s := IntToString(i);
    if i < 0 {
      DigitsOfNat(-i);
      assert s[1..] == NatToString(-i);
      assert |s| >= 2 && s[0] == '-' && AllDigits(s[1..]);
    } else {
      DigitsOfNat(i);
      assert s == NatToString(i);
      assert !(s[0] == '-' || s[0] == '+');
    }
  }
}

=== FILE: wrappers.dfy ===
/** Option and Result, the failure-carrying values used by every other module. */
module Wrappers {

  /** A value that may be missing (Python's `None`). */
  datatype Option<+T> = None | Some(value: T)

  /** Either a value or the error the source would raise instead of returning. */
  datatype Result<+R, +E> = Success(value: R) | Failure(error: E)
}
